=== FILE: README.md ===
# Math dispatcher and shop store

This project models two small services in Dafny.

**The raw ASGI math dispatcher (`HW1`).** The `app` coroutine routes an HTTP
scope by path prefix and method:
- `/factorial?n=…` computes `n!`;
- `/fibonacci/<n>` computes the iterative pair-loop Fibonacci;
- `/mean` reads a JSON list from the chunked request body and averages it;
- anything else gets 404.

Every reply goes out as ASGI frames: a `http.response.start` frame with a
status and a JSON content type, then a `http.response.body` frame. Error
replies use the fixed bodies of `send_error`.

In the model, one request is a pure function
`Serv.App(scope, messages, load)`:
- `messages` are the `receive()` messages, in order;
- `load` stands for `json.loads`;
- the result is the sequence of frames sent, together with how the call
  ended:
  - `Done`: it returned;
  - `Crashed`: an uncaught exception escaped;
  - `Waiting`: every message asked for more body, so the coroutine would
    still be waiting on `receive()`.

The model keeps these Python behaviours of the code:
- `dict(...)` raises on a query pair with two `=`, before any frame is sent;
- `n=0` is accepted because `"0"` is a non-empty string;
- the length check runs before the type check, so `{}`, `""` and `[]` all get 400;
- `True` and `False` count as numbers;
- `fibonacci(n)` is the `(n+1)`-th Fibonacci number;
- `send_error` with a status outside its table sends the start frame and
  then raises.

**The in-memory shop (`hw_2/routers/quaries.py`).** The shop keeps two
insertion-ordered dicts: carts and items. Its handlers create, read, list,
change and soft-delete entries. Each handler is a function from a `Store` to
a new store and an outcome:
- `Ok(value)`;
- `Fail(status)`, for a raised `HTTPException`;
- `Crash`, for a Python exception such as a `KeyError`.

`Shop.Valid` is the store invariant, and every handler preserves it:
- the ordered dicts are consistent;
- each entry's `id` equals its key;
- cart lines hold distinct items.

Modules, in dependency order:
- `Seqs`: option type, filter, clamped slice, order-preserving subsequence, sums.
- `Text`: bytes, split/join on a separator, decimal integer parsing and printing.
- `MathFns`: `factorial`, `fibonacci`, `mean` (`HW1/math.py`).
- `Wire`: ASGI messages and frames, `read_body`, `send_json`, `send_error`.
- `Serv`: routing and the three handlers of `HW1/serv.py`.
- `OrderedDict`: a Python dict with integer keys, and `max(keys, default=0) + 1`.
- `Shop`: entities, store and handlers of `hw_2/routers/quaries.py`.

## Model

| member | source | states |
|---|---|---|
| Serv.App | HW1/serv.py:9-28 | a non-`http` scope sends nothing and returns; a request with no route gets exactly the 404 error reply; a factorial, Fibonacci or mean route gets exactly the reply of `handle_factorial` on the query, `handle_fibonacci` on the path, or `handle_mean` on the messages |
| Serv.RouteOf | HW1/serv.py:16-28 | each route is taken iff the verb is GET and the path starts with its own prefix (`/factorial`, `/fibonacci`, `/mean`); any other request has no route |
| Serv.PrefixesDisjoint | HW1/serv.py:16-24 | no path starts with two of `/factorial`, `/fibonacci`, `/mean`, so at most one route can match |
| Serv.AppAnswers | HW1/serv.py:9-28 | for an http scope: a returning call sent a complete two-frame reply; a crashing or waiting call sent nothing; it crashes exactly on a GET `/factorial` whose query has a piece with several `=`, or a GET `/mean` whose body is not UTF-8, and waits exactly on a GET `/mean` whose body messages are never final |
| Serv.UnknownPathNotFound | HW1/serv.py:28 | an unknown path, or POST to a known prefix, gets the 404 reply |
| Wire.ReadBody | HW1/serv.py:31-41 | a body is produced iff some message is final; it is the concatenation of the chunks up to and including the first final message, a missing body counting as empty |
| Wire.MessageDefaults | HW1/serv.py:37-38 | a message without `body` adds no bytes; one with `body` adds exactly it; only `more_body=True` asks for more, absent or `False` ends the body |
| Wire.ReadBodyExamples | HW1/serv.py:31-41 | two chunks concatenate in order; a single final empty chunk gives empty bytes; a lone `more_body` message never completes |
| Wire.SendJson | HW1/serv.py:43-54 | exactly two frames: the start frame with the given status and the JSON content type, then the body frame carrying the dumped data |
| Serv.QueryParams | HW1/serv.py:57-58 | `dict(...)` raises iff some `&`-separated piece holds two or more `=`; otherwise every kept piece (one holding `=`) is `key=value`, the keys are exactly the texts before `=` of the kept pieces, and each key maps to the text after `=` of its last kept piece |
| Serv.Kept | HW1/serv.py:58 | a piece is kept iff it is one of the `&`-separated pieces and contains `=`; the kept pieces keep their order and each occurs as often as in the split |
| Serv.QueryParts | HW1/serv.py:58 | `param.split("=")` of each kept piece, in order: every kept piece really holds a `=`, so it splits into at least two parts, and the parts rejoined with `=` give the piece back |
| Serv.Rejoin | HW1/serv.py:58 | `p.split("=")` of a piece holding `=` has at least two parts, and `"=".join` of them gives `p` back |
| Serv.KeptRejoin | HW1/serv.py:58 | every kept piece splits on `=` into at least two parts that rejoin to the piece |
| Serv.PairPieces | HW1/serv.py:58 | a piece with exactly one `=` is its key, `=`, and its value, neither containing `=` |
| Serv.PartsArePairs | HW1/serv.py:58 | some kept piece splits into other than two parts iff some `&`-separated piece holds two or more `=` |
| Serv.BadPartHasTwoEquals | HW1/serv.py:58 | a kept piece that does not split into two parts is an `&`-separated piece holding two or more `=` |
| Serv.PiecesHaveOneEquals | HW1/serv.py:58 | when every kept piece splits into two parts, no `&`-separated piece holds more than one `=` |
| Serv.KeptDict | HW1/serv.py:58 | when every kept piece splits into two parts, the dict built from them has exactly their keys, and the last piece of each key gives its value |
| Serv.PairsOfKept | HW1/serv.py:58 | each pair handed to `dict()` is the key and the value of its kept piece, and that piece is `key=value` |
| Serv.QueryParamsSingle | HW1/serv.py:58 | a single `key=value` pair without separators yields the one-entry dict |
| Serv.NQuery | HW1/serv.py:57-59 | the query `n=<v>`, for a value without `&` or `=`, gives the dict `{"n": v}` |
| Serv.EmptyQuery | HW1/serv.py:57-58 | the empty query gives the empty dict: `"".split("&")` is `[""]`, which holds no `=` |
| Serv.DictOfKeys | HW1/serv.py:58 | the dict's keys are exactly the first components of the pairs |
| Serv.DictOfLastWins | HW1/serv.py:58 | a key maps to the value of its last pair: a later duplicate overrides an earlier one |
| Serv.HandleFactorial | HW1/serv.py:56-76 | crashes with no frames iff `dict()` raises; otherwise answers completely: 422 when `n` is missing or empty, 422 when `int(n)` fails, 400 when it is negative, and 200 with `{"result": factorial(n)}` otherwise |
| Serv.FactorialOfDecimal | HW1/serv.py:65-75 | `n=<decimal>` gets 400 for a negative number and 200 with `{"result": n!}` otherwise |
| Serv.FactorialZeroIsNotMissing | HW1/serv.py:59-63 | `n=0` is not treated as missing: the reply is 200 with result 1 |
| Serv.FactorialMissing | HW1/serv.py:59-63 | the empty query and the query `m=5` both leave `n` at its falsy default and get the 422 reply |
| Serv.FactorialOtherKey | HW1/serv.py:59-63 | a single parameter with any key other than `n` leaves `n` at its falsy default: the 422 reply |
| Serv.FactorialEmpty | HW1/serv.py:59-63 | an empty `n=` gets the 422 reply |
| Serv.FactorialNotInteger | HW1/serv.py:65-69 | any non-empty value without separators that `int()` rejects (`n=x`) gets the 422 reply |
| Serv.FactorialTwoEquals | HW1/serv.py:57-58 | the query `n=1=2` crashes before any frame is sent |
| Serv.TwoEqualsRaises | HW1/serv.py:58 | `dict()` raises on the query `n=1=2`, whose one piece splits into three parts |
| Serv.HandleFibonacci | HW1/serv.py:81-94 | always answers completely: 422 when the last `/`-segment of the path is not an integer, 400 when it is negative, and 200 with `{"result": fibonacci(n)}` (the `(n+1)`-th Fibonacci number) otherwise |
| Serv.FibonacciOfDecimal | HW1/serv.py:81-94 | for any prefix ending in `/`, a decimal last segment gets 400 when negative and 200 with `{"result": fibonacci(n)}` otherwise |
| Serv.FibonacciEmptySegment | HW1/serv.py:82-87 | `/fibonacci/` has an empty last segment and gets 422 |
| Serv.RespondMean | HW1/serv.py:98-116 | a non-UTF-8 body crashes with no frames; otherwise the reply is complete: 400 iff the value parses and has length 0, 200 iff it is a non-empty list of numbers, and the 422 reply in every other case |
| Serv.PyLen | HW1/serv.py:103 | `len` is defined exactly for strings, lists and objects, and is 0 exactly for `""`, `[]` and `{}` |
| Serv.MeanEmptyValues | HW1/serv.py:103-116 | `[]`, `{}` and `""` all get the 400 reply; every bare integer, float, boolean and `null` (no length) gets 422, and so does malformed JSON |
| Serv.MeanCountsBooleans | HW1/serv.py:107-111 | `[True, 2]` gets 200 with mean 1.5 (`True` is an `int`); `[1, "2"]`, `[null]` and `[[1]]` each get the 422 reply |
| Serv.MeanRejectsNonNumber | HW1/serv.py:107-109 | any list with an element that is not an `int`, `float` or `bool` gets the 422 reply |
| Serv.MeanResultBetween | HW1/serv.py:107-111 | a successful mean reply carries a result between the smallest and the largest element |
| Serv.HandleMean | HW1/serv.py:98-101 | the handler waits iff the body never completes; otherwise it answers from `json.loads` of the reassembled body |
| Text.Split | HW1/serv.py:58 | `str.split(c)` gives one more piece than there are separators, and no piece contains the separator |
| Text.JoinSplit | HW1/serv.py:58 | joining the pieces of a split with the separator gives back the string |
| Text.SplitJoin | HW1/serv.py:58 | splitting a join of separator-free pieces gives back the pieces |
| Text.LastPiece | HW1/serv.py:83 | `s.split(c)[-1]` is a separator-free suffix of `s`, preceded by `c` whenever it is shorter than `s` |
| Text.ParseInt | HW1/serv.py:66 | `int(s)` succeeds iff `s` is an optional `+` or `-` followed by at least one decimal digit; the value is the digits' decimal value, negated after `-` |
| Text.ParseShow | HW1/serv.py:66 | parsing the decimal text of any integer gives the integer back |
| MathFns.Factorial | HW1/math.py:4-7 | raises iff `n < 0`; otherwise the result is at least 1 and at least `n` |
| MathFns.FactorialRecurrence | HW1/math.py:7 | `factorial(0) = 1` and `factorial(n) = n * factorial(n-1)` for `n >= 1` |
| MathFns.Fibonacci | HW1/math.py:9-17 | raises iff `n < 0` |
| MathFns.FibLoopInvariant | HW1/math.py:13-17 | the pair loop started from `(F(i), F(i+1))` and run `k` times ends with `b = F(i+k+1)` |
| MathFns.FibonacciIsShifted | HW1/math.py:13-17 | `fibonacci(n) = F(n+1)`, one place ahead of the standard sequence |
| MathFns.FibonacciRecurrence | HW1/math.py:13-17 | `fibonacci(n+2) = fibonacci(n+1) + fibonacci(n)` |
| MathFns.FibonacciExamples | HW1/math.py:13-17 | `fibonacci(0) = 1`, `fibonacci(1) = 1`, `fibonacci(5) = 8` |
| MathFns.Mean | HW1/math.py:19-22 | raises iff the list is empty; otherwise the result times the length is the sum |
| MathFns.MeanBetweenMinMax | HW1/math.py:22 | over exact reals the mean lies between the minimum and the maximum |
| Wire.SendError | HW1/error.py:3-15 | the start frame with the status goes out first; the call completes iff the status is 400, 404 or 422, with that status's fixed body; otherwise it raises after the start frame alone |
| Wire.ErrorBodies | HW1/error.py:4-6 | the three fixed bodies `Bad Request`, `Not found`, `Unprocessable Entity`, and a 500 that crashes after the start frame |
| OrderedDict.NextId | hw_2/routers/quaries.py:15-19 | `max(keys, default=0) + 1`: larger than every key, so unused; 1 for an empty dict; otherwise one more than an existing key |
| OrderedDict.MaxKey | hw_2/routers/quaries.py:16 | `max(keys, default=0)`: at least every key, 0 for no keys, and otherwise one of the keys |
| OrderedDict.Set | hw_2/routers/quaries.py:117 | assignment keeps the dict consistent, maps `k` to `v`, keeps an existing key's place and appends a new key |
| OrderedDict.Values | hw_2/routers/quaries.py:42 | `list(d.values())`: one value per key, in key insertion order, and every stored value is listed |
| Shop.Initial | hw_2/routers/quaries.py:11-13 | the start-up store (no carts, item 1, deleted item 2) satisfies the store invariant |
| Shop.CreateCart | hw_2/routers/quaries.py:21-28 | inserts one empty cart with price 0 under the id `max(keys, default=0) + 1`; all other carts and the items are unchanged |
| Shop.GetCart | hw_2/routers/quaries.py:30-35 | returns the stored cart iff the id is present, and 404 otherwise |
| Shop.MatchingCarts | hw_2/routers/quaries.py:42-51 | the carts kept are exactly the stored carts meeting every given price and quantity bound, in store order, each as often as it is stored |
| Shop.GetCartParams | hw_2/routers/quaries.py:37-56 | at most `limit` summaries; the i-th summarizes the `(offset+i)`-th matching cart, with quantity the sum of its line quantities |
| Shop.GetCartParamsSound | hw_2/routers/quaries.py:42-54 | every listed summary belongs to a stored cart that meets the filters |
| Shop.GetCartParamsComplete | hw_2/routers/quaries.py:42-53 | when all matches fit on the first page, every stored cart meeting the filters is listed |
| Shop.IncrementLine | hw_2/routers/quaries.py:68-73 | the first line with the item id gets its quantity raised by one, and every other line is unchanged |
| Shop.QuantityCons | hw_2/routers/quaries.py:49-54 | `sum(item.quantity for item in cart.items)` is also the first line's quantity plus the sum of the rest |
| Shop.QuantityAppend | hw_2/routers/quaries.py:49-54 | appending a line adds its quantity to the sum |
| Shop.QuantityUpdate | hw_2/routers/quaries.py:49-54 | replacing one line changes the sum by the difference of the two quantities |
| Shop.AddItemToCart | hw_2/routers/quaries.py:58-78 | missing cart gives 404 before missing item gives 404, store unchanged; on success the cart's price rises by the item's price and its quantity by 1, an existing line is incremented in place (`Quantity increased`) or one line is appended with `available = not status_delete` (`Item added to cart`), and the other carts and the items are unchanged |
| Shop.AddLine | hw_2/routers/quaries.py:65-76 | adding one unit keeps the cart's lines distinct, raises its price by the item's price and its quantity by 1; an existing line of the item is incremented in place, otherwise the new line is appended |
| Shop.DeletedItemAddedUnavailable | hw_2/routers/quaries.py:75 | a soft-deleted item can still be added to a cart, as an unavailable line |
| Shop.AddNewItem | hw_2/routers/quaries.py:80-86 | raises iff `name` or `price` is missing; otherwise inserts one undeleted item under the id `max(keys, default=0) + 1`, all other items and the carts unchanged |
| Shop.GetItem | hw_2/routers/quaries.py:88-94 | returns the stored item iff it is present and not deleted, and 404 otherwise |
| Shop.MatchingItems | hw_2/routers/quaries.py:100-107 | the items kept are exactly the stored items meeting the deleted flag and the price bounds, in store order, each as often as it is stored |
| Shop.GetItemParams | hw_2/routers/quaries.py:96-110 | at most `limit` items, an order-preserving subsequence of the stored items; the i-th is the `(offset+i)`-th match, and the count is `max(0, min(limit, matches - offset))` |
| Shop.GetItemParamsSound | hw_2/routers/quaries.py:100-110 | every listed item is the stored item under its own id, meets the price bounds, and is undeleted unless `show_deleted` is set |
| Shop.GetItemParamsComplete | hw_2/routers/quaries.py:100-110 | when all matches fit on the first page, an item is listed iff it is stored and meets the filters |
| Shop.PutItem | hw_2/routers/quaries.py:112-119 | only `name` is checked (422 without it); with `name` but no `price` it raises; otherwise it stores a fresh undeleted item at `id`, creating or undeleting it |
| Shop.PutThenGet | hw_2/routers/quaries.py:112-119 | after a successful put, getting the same id returns the item put |
| Shop.PatchItem | hw_2/routers/quaries.py:121-142 | a missing id raises; a deleted item gets 304; a key outside the item fields gets 422; a change of `status_delete` gets 422; otherwise name and price are taken from the patch or kept; failures leave the store unchanged |
| Shop.DeleteItem | hw_2/routers/quaries.py:144-150 | an absent id gives 404; otherwise only that item's `status_delete` becomes true, name and price and every other entry unchanged |
| Shop.DeleteIdempotent | hw_2/routers/quaries.py:144-150 | deleting twice gives the same store and answer as deleting once |
| Shop.DeleteHides | hw_2/routers/quaries.py:144-150 | after a delete, the item is hidden from `get_item` and from listings without `show_deleted` |
| Seqs.Slice | hw_2/routers/quaries.py:53 | `xs[offset:offset+limit]` has length `min(limit, |xs| - offset)` (0 past the end), holds the elements from `offset` on, and is a subsequence |
| Seqs.Filter | hw_2/routers/quaries.py:45 | a list comprehension keeps exactly the elements satisfying the condition, in order (an order-preserving subsequence), each kept as many times as it occurs |

## Left out

- The async mechanics of ASGI are not modelled. `receive()` becomes the input message sequence, `send()` the output frame sequence.
- The message `type` field is not read. The handlers do not read it either, except `scope["type"]`.
- `scope["query_string"].decode()`: the query is taken as an already decoded string. A query that is not UTF-8 is not modelled.
- `json.loads` and `json.dumps` are not implemented. The first is the parameter `load`, whose result is a JSON value, a decode error or a Unicode error. The second is represented by the `Dumped` payload that carries the value.
- Text.ParseInt: accepts only an optional sign and ASCII digits. It does not model `int()` accepting surrounding whitespace, underscores between digits and non-ASCII digits.
- Floating point is not modelled: prices and the mean use exact reals. There is no rounding, no NaN or infinity, and no `OverflowError` from converting a large integer sum.
- FastAPI and pydantic validation become preconditions rather than modelled error paths:
  - `limit >= 1` (`PositiveInt`);
  - non-negative bounds (`NonNegative*`);
  - typed body values (`NameAndPriceTyped`, `PatchTyped`).
- The `HTTPException` detail texts, the `location` header, and the 201 status of `create_cart` and `add_new_item` are not modelled. Only the status codes of the errors are kept.
- Shop.GetCartParamsComplete: states completeness only for a first page that holds every match. Membership on other pages follows from `GetCartParams`' index-wise contract, which is not restated as a lemma.
- Integers are unbounded in the model. Recent Python versions refuse to convert between text and integers of more than 4300 digits. So `int()` of a longer query value would raise (a 422 reply), and `json.dumps` of a very large factorial or Fibonacci result would raise (a crash). This limit is not modelled.
- The hw_4 user service and the `main.py` files are not part of this model. They only wire routers together, or their logic is not shown.

=== FILE: dict.dfy ===
/**
 A Python `dict` with integer keys: assignment to a new key appends it to the
 insertion order, assignment to an existing key keeps its place, and
 `list(d.values())` follows that order.
 */
module OrderedDict {

  datatype Dict<V> = Dict(keys: seq<int>, entries: map<int, V>)

  /** The keys are listed once each, and exactly the keys of the entries are listed. */
  ghost predicate Valid<V>(d: Dict<V>) {
    && (forall i, j :: 0 <= i < j < |d.keys| ==> d.keys[i] != d.keys[j])
    && (forall i :: 0 <= i < |d.keys| ==> d.keys[i] in d.entries)
    && (forall k :: k in d.entries ==> k in d.keys)
  }

  function Empty<V>(): (d: Dict<V>)
    ensures Valid(d) && d.entries == map[]
  {
    Dict([], map[])
  }

  /** `d[k] = v` */
  function Set<V>(d: Dict<V>, k: int, v: V): (r: Dict<V>)
    requires Valid(d)
    ensures Valid(r)
    ensures r.entries == d.entries[k := v]
    ensures k in d.entries ==> r.keys == d.keys
    ensures k !in d.entries ==> r.keys == d.keys + [k]
  {
    if k in d.entries then Dict(d.keys, d.entries[k := v])
    else Dict(d.keys + [k], d.entries[k := v])
  }

  /** `list(d.values())` */
  function Values<V>(d: Dict<V>): (r: seq<V>)
    requires Valid(d)
    ensures |r| == |d.keys|
    ensures forall i :: 0 <= i < |r| ==> r[i] == d.entries[d.keys[i]]
    ensures forall k :: k in d.entries ==> d.entries[k] in r
  {
    seq(|d.keys|, i requires 0 <= i < |d.keys| => d.entries[d.keys[i]])
  }

  /** `max(keys, default=0)` */
  function MaxKey(keys: seq<int>): (m: int)
    ensures forall i :: 0 <= i < |keys| ==> keys[i] <= m
    ensures keys == [] ==> m == 0
    ensures keys != [] ==> exists i :: 0 <= i < |keys| && keys[i] == m
  {
    if keys == [] then 0
    else if |keys| == 1 then keys[0]
    else
      var m := MaxKey(keys[..|keys| - 1]);
      if keys[|keys| - 1] > m then keys[|keys| - 1] else m
  }

  /** `max(d.keys(), default=0) + 1`: larger than every key, so never in use. */
  function NextId<V>(d: Dict<V>): (id: int)
    requires Valid(d)
    ensures id !in d.entries
    ensures forall k :: k in d.entries ==> k < id
    ensures d.entries == map[] ==> id == 1
    ensures d.entries != map[] ==> id - 1 in d.entries
  {
    assert d.keys != [] ==> d.keys[0] in d.entries;
    assert d.keys == [] ==> d.entries == map[] by {
      if d.keys == [] {
        forall k | k in d.entries.Keys
          ensures k in d.keys
        {
        }
        assert d.entries.Keys == {};
      }
    }
    MaxKey(d.keys) + 1
  }
}

=== FILE: math.dfy ===
/**
 The three math functions behind the raw dispatcher: `factorial`,
 `fibonacci` (with its pair loop, which returns the (n+1)-th Fibonacci
 number) and the arithmetic `mean`, over exact integers and reals.
 */
module MathFns {

  import opened Seqs

  /** A call that either returns a value or raises `ValueError`. */
  datatype Raised<+T> = Returns(value: T) | RaisesValueError

  /** The textbook factorial. */
  function Fact(n: nat): (r: nat)
    ensures r >= 1
  {
    if n == 0 then 1 else n * Fact(n - 1)
  }

  /** `factorial(n)`: raises on a negative argument, otherwise `n!`. */
  function Factorial(n: int): (r: Raised<int>)
    ensures r.RaisesValueError? <==> n < 0
    ensures r.Returns? ==> r.value >= 1 && r.value >= n
  {
    if n < 0 then RaisesValueError
    else
      FactAtLeast(n);
      Returns(Fact(n))
  }

  lemma FactAtLeast(n: nat)
    ensures Fact(n) >= n
  {
  }

  lemma FactorialRecurrence(n: int)
    requires n >= 1
    ensures Factorial(0) == Returns(1)
    ensures Factorial(n).value == n * Factorial(n - 1).value
  {
  }

  /** The Fibonacci numbers F(0) = 0, F(1) = 1, F(k + 2) = F(k + 1) + F(k). */
  function Fib(k: nat): nat {
    if k < 2 then k else Fib(k - 1) + Fib(k - 2)
  }

  /** `for _ in range(k): a, b = b, a + b`, then `return b`. */
  function FibLoop(k: nat, a: int, b: int): int
    decreases k
  {
    if k == 0 then b else FibLoop(k - 1, b, a + b)
  }

  /** `fibonacci(n)`: raises on a negative argument, otherwise runs the pair loop from (0, 1). */
  function Fibonacci(n: int): (r: Raised<int>)
    ensures r.RaisesValueError? <==> n < 0
  {
    if n < 0 then RaisesValueError else Returns(FibLoop(n, 0, 1))
  }

  /** Loop invariant: starting from (F(i), F(i + 1)), k more iterations return F(i + k + 1). */
  lemma {:induction false} FibLoopInvariant(k: nat, i: nat)
    ensures FibLoop(k, Fib(i), Fib(i + 1)) == Fib(i + k + 1)
    decreases k
  {
    if k > 0 {
      assert Fib(i) + Fib(i + 1) == Fib(i + 2);
      FibLoopInvariant(k - 1, i + 1);
    }
  }

  /** `fibonacci(n)` is F(n + 1), one index past the textbook numbering. */
  lemma FibonacciIsShifted(n: nat)
    ensures Fibonacci(n) == Returns(Fib(n + 1))
  {
    FibLoopInvariant(n, 0);
  }

  lemma FibonacciRecurrence(n: nat)
    ensures Fibonacci(n + 2).value == Fibonacci(n + 1).value + Fibonacci(n).value
  {
    FibonacciIsShifted(n);
    FibonacciIsShifted(n + 1);
    FibonacciIsShifted(n + 2);
  }

  lemma FibonacciExamples()
    ensures Fibonacci(0) == Returns(1)
    ensures Fibonacci(1) == Returns(1)
    ensures Fibonacci(5) == Returns(8)
  {
    FibonacciIsShifted(5);
  }

  function MinOf(xs: seq<real>): real
    requires xs != []
  {
    if |xs| == 1 then xs[0]
    else var m := MinOf(xs[..|xs| - 1]); if xs[|xs| - 1] < m then xs[|xs| - 1] else m
  }

  function MaxOf(xs: seq<real>): real
    requires xs != []
  {
    if |xs| == 1 then xs[0]
    else var m := MaxOf(xs[..|xs| - 1]); if xs[|xs| - 1] > m then xs[|xs| - 1] else m
  }

  /** `mean(data)`: raises on an empty list, otherwise `sum(data) / len(data)`. */
  function Mean(xs: seq<real>): (r: Raised<real>)
    ensures r.RaisesValueError? <==> xs == []
    ensures r.Returns? ==> r.value * (|xs| as real) == Sum(xs)
  {
    if xs == [] then RaisesValueError else Returns(Sum(xs) / (|xs| as real))
  }

  lemma {:induction false} SumAtLeast(xs: seq<real>)
    requires xs != []
    ensures (|xs| as real) * MinOf(xs) <= Sum(xs)
    decreases |xs|
  {
    if |xs| > 1 {
      var ys := xs[..|xs| - 1];
      var n := |ys| as real;
      var lo := MinOf(xs);
      SumAtLeast(ys);
      MulMono(n, lo, MinOf(ys));
      assert |xs| as real == n + 1.0;
      Distribute(n, lo);
    }
  }

  lemma {:induction false} SumAtMost(xs: seq<real>)
    requires xs != []
    ensures Sum(xs) <= (|xs| as real) * MaxOf(xs)
    decreases |xs|
  {
    if |xs| > 1 {
      var ys := xs[..|xs| - 1];
      var n := |ys| as real;
      var hi := MaxOf(xs);
      SumAtMost(ys);
      MulMono(n, MaxOf(ys), hi);
      assert |xs| as real == n + 1.0;
      Distribute(n, hi);
    }
  }

  lemma Distribute(n: real, a: real)
    ensures (n + 1.0) * a == n * a + a
  {
  }

  lemma MulMono(n: real, a: real, b: real)
    requires n >= 0.0 && a <= b
    ensures n * a <= n * b
  {
  }

  lemma DivBetween(total: real, n: real, lo: real, hi: real)
    requires n > 0.0 && n * lo <= total <= n * hi
    ensures lo <= total / n <= hi
  {
  }

  /** The mean lies between the smallest and the largest element. */
  lemma MeanBetweenMinMax(xs: seq<real>)
    requires xs != []
    ensures MinOf(xs) <= Mean(xs).value <= MaxOf(xs)
  {
    SumAtLeast(xs);
    SumAtMost(xs);
    DivBetween(Sum(xs), |xs| as real, MinOf(xs), MaxOf(xs));
  }
}

=== FILE: seqs.dfy ===
/**
 Sequence helpers shared by both services: the list-comprehension filter,
 Python's clamped slice `xs[offset:offset+limit]`, order-preserving
 subsequences and sums.
 */
module Seqs {

  datatype Option<+T> = None | Some(value: T)

  /** `[x for x in xs if p(x)]` */
  function Filter<T>(xs: seq<T>, p: T -> bool): (r: seq<T>)
    ensures |r| <= |xs|
    ensures forall x :: x in r ==> x in xs && p(x)
    ensures forall x :: x in xs && p(x) ==> x in r
    ensures forall i :: 0 <= i < |r| ==> p(r[i])
    ensures forall x :: x in xs ==> multiset(r)[x] == if p(x) then multiset(xs)[x] else 0
    ensures IsSubseq(r, xs)
  {
    if xs == [] then []
    else
      var rest := Filter(xs[1..], p);
      assert xs == [xs[0]] + xs[1..];
      if p(xs[0]) then
        assert ([xs[0]] + rest)[1..] == rest;
        [xs[0]] + rest
      else
        rest
  }

  /** `xs` filtered by `p` when `enabled`, and left as it is otherwise. */
  function FilterIf<T>(xs: seq<T>, enabled: bool, p: T -> bool): (r: seq<T>)
    ensures forall x :: x in r ==> x in xs && (enabled ==> p(x))
    ensures forall x :: x in xs && (enabled ==> p(x)) ==> x in r
    ensures forall x :: x in xs ==> multiset(r)[x] == if enabled ==> p(x) then multiset(xs)[x] else 0
    ensures IsSubseq(r, xs)
  {
    if enabled then
      Filter(xs, p)
    else
      SubseqRefl(xs);
      xs
  }

  /** True iff `a` is obtained from `b` by deleting elements, keeping the order. */
  ghost predicate IsSubseq<T>(a: seq<T>, b: seq<T>)
    decreases |b|
  {
    if a == [] then true
    else if b == [] then false
    else (a[0] == b[0] && IsSubseq(a[1..], b[1..])) || IsSubseq(a, b[1..])
  }

  lemma {:induction false} SubseqRefl<T>(a: seq<T>)
    ensures IsSubseq(a, a)
    decreases |a|
  {
    if a != [] {
      SubseqRefl(a[1..]);
    }
  }

  lemma {:induction false} SubseqTrans<T>(a: seq<T>, b: seq<T>, c: seq<T>)
    requires IsSubseq(a, b) && IsSubseq(b, c)
    ensures IsSubseq(a, c)
    decreases |c|
  {
    if a == [] {
    } else if IsSubseq(b, c[1..]) {
      SubseqTrans(a, b, c[1..]);
    } else if a[0] == b[0] && IsSubseq(a[1..], b[1..]) {
      SubseqTrans(a[1..], b[1..], c[1..]);
    } else {
      SubseqTrans(a, b[1..], c[1..]);
    }
  }

  /** A sub-range of a sequence is a subsequence of it. */
  lemma {:induction false} RangeIsSubseq<T>(xs: seq<T>, lo: nat, hi: nat)
    requires lo <= hi <= |xs|
    ensures IsSubseq(xs[lo..hi], xs)
    decreases |xs|
  {
    if lo == hi {
    } else if lo == 0 {
      RangeIsSubseq(xs[1..], 0, hi - 1);
      assert xs[1..][0..hi - 1] == xs[0..hi][1..];
    } else {
      RangeIsSubseq(xs[1..], lo - 1, hi - 1);
      assert xs[1..][lo - 1..hi - 1] == xs[lo..hi];
    }
  }

  /** Python's `xs[offset:offset + limit]` for a non-negative offset and limit: both ends are clamped to `|xs|`. */
  function Slice<T>(xs: seq<T>, offset: nat, limit: nat): (r: seq<T>)
    ensures |r| == if offset >= |xs| then 0 else Min(limit, |xs| - offset)
    ensures forall i :: 0 <= i < |r| ==> r[i] == xs[offset + i]
    ensures IsSubseq(r, xs)
  {
    var lo := Min(offset, |xs|);
    var hi := Min(offset + limit, |xs|);
    RangeIsSubseq(xs, lo, hi);
    xs[lo..hi]
  }

  function Min(a: int, b: int): int {
    if a <= b then a else b
  }

  /** `sum(xs)` over exact reals. */
  function Sum(xs: seq<real>): real {
    if xs == [] then 0.0 else Sum(xs[..|xs| - 1]) + xs[|xs| - 1]
  }
}

=== FILE: serv.dfy ===
/**
 The raw ASGI math dispatcher: `app` routes by path prefix and method to the
 factorial, fibonacci and mean handlers, each of which answers with either a
 JSON result or one of the fixed error responses.
 */
module Serv {

  import opened Seqs
  import opened Text
  import opened MathFns
  import opened Wire

  /** The fields of the ASGI `scope` the dispatcher reads; the query string is taken as decoded text. */
  datatype Scope = Scope(kind: string, verb: string, path: string, queryString: string)

  datatype Route = FactorialRoute | FibonacciRoute | MeanRoute | NoRoute

  predicate StartsWith(s: string, prefix: string) {
    |prefix| <= |s| && s[..|prefix|] == prefix
  }

  /**
   The routing of `app`: the prefixes are tried in order, each only for GET.
   They cannot overlap, so each route is taken exactly when its own test holds.
   */
  function RouteOf(verb: string, path: string): (r: Route)
    ensures r == FactorialRoute <==> verb == "GET" && StartsWith(path, "/factorial")
    ensures r == FibonacciRoute <==> verb == "GET" && StartsWith(path, "/fibonacci")
    ensures r == MeanRoute <==> verb == "GET" && StartsWith(path, "/mean")
  {
    PrefixesDisjoint(path);
    if StartsWith(path, "/factorial") && verb == "GET" then FactorialRoute
    else if StartsWith(path, "/fibonacci") && verb == "GET" then FibonacciRoute
    else if StartsWith(path, "/mean") && verb == "GET" then MeanRoute
    else NoRoute
  }

  /** No path starts with two of the three route prefixes. */
  lemma PrefixesDisjoint(path: string)
    ensures !(StartsWith(path, "/factorial") && StartsWith(path, "/fibonacci"))
    ensures !(StartsWith(path, "/factorial") && StartsWith(path, "/mean"))
    ensures !(StartsWith(path, "/fibonacci") && StartsWith(path, "/mean"))
  {
    if StartsWith(path, "/factorial") {
      assert path[1] == "/factorial"[1] && path[2] == "/factorial"[2];
    }
    if StartsWith(path, "/fibonacci") {
      assert path[1] == "/fibonacci"[1] && path[2] == "/fibonacci"[2];
    }
    if StartsWith(path, "/mean") {
      assert path[1] == "/mean"[1];
    }
  }

  /** `{"result": value}` */
  function ResultOf(value: Json): Json {
    JObject(map["result" := value])
  }

  /** The status of a reply that has sent its start frame. */
  function Status(r: Reply): int
    requires |r.frames| >= 1 && r.frames[0].Start?
  {
    r.frames[0].status
  }

  /** A finished exchange: two frames with one of the four statuses, an error status carrying its fixed body. */
  predicate Answered(r: Reply) {
    && |r.frames| >= 1 && r.frames[0].Start?
    && Status(r) in {200, 400, 404, 422}
    && Responded(r, Status(r))
    && (Status(r) != 200 ==> RespondedError(r, Status(r)))
  }

  // ---------------------------------------------------------------------------
  // Query string

  /** The `&`-separated parameters that hold a `=`, in order. */
  function Kept(query: string): (r: seq<string>)
    ensures forall p :: p in r <==> p in Split(query, '&') && '=' in p
    ensures IsSubseq(r, Split(query, '&'))
    ensures forall p :: p in Split(query, '&') ==>
      multiset(r)[p] == if '=' in p then multiset(Split(query, '&'))[p] else 0
  {
    Filter(Split(query, '&'), (p: string) => '=' in p)
  }

  /** The `param.split("=")` lists of the kept parameters. */
  function QueryParts(query: string): (r: seq<seq<string>>)
    ensures |r| == |Kept(query)|
    ensures forall i :: 0 <= i < |r| ==> r[i] == Split(Kept(query)[i], '=')
    ensures forall i :: 0 <= i < |r| ==> |r[i]| >= 2 && Join(r[i], '=') == Kept(query)[i]
  {
    var kept := Kept(query);
    KeptRejoin(query);
    seq(|kept|, i requires 0 <= i < |kept| => Split(kept[i], '='))
  }

  /** A parameter holding `=` splits into at least two parts, which rejoin to it. */
  lemma Rejoin(p: string)
    requires '=' in p
    ensures |Split(p, '=')| >= 2 && Join(Split(p, '='), '=') == p
  {
    CountZero(p, '=');
    JoinSplit(p, '=');
  }

  /** Every kept parameter splits into at least two parts, which rejoin to it. */
  lemma KeptRejoin(query: string)
    ensures forall i :: 0 <= i < |Kept(query)| ==>
      |Split(Kept(query)[i], '=')| >= 2 && Join(Split(Kept(query)[i], '='), '=') == Kept(query)[i]
  {
    var kept := Kept(query);
    forall i | 0 <= i < |kept|
      ensures |Split(kept[i], '=')| >= 2 && Join(Split(kept[i], '='), '=') == kept[i]
    {
      assert kept[i] in kept;
      Rejoin(kept[i]);
    }
  }

  /** The text before the first `=` of a parameter. */
  function KeyOf(p: string): string {
    Split(p, '=')[0]
  }

  /** The text after the `=` of a parameter that holds one. */
  function ValueOf(p: string): string {
    var ps := Split(p, '=');
    if |ps| >= 2 then ps[1] else []
  }

  /** A parameter with a single `=` is its key, the `=`, and its value. */
  lemma PairPieces(p: string)
    requires Count(p, '=') == 1
    ensures p == KeyOf(p) + "=" + ValueOf(p)
    ensures '=' !in KeyOf(p) && '=' !in ValueOf(p)
  {
    var ps := Split(p, '=');
    JoinSplit(p, '=');
    assert Join(ps, '=') == ps[0] + ['='] + Join(ps[1..], '=');
  }

  /** No later kept parameter has the key of parameter `i`. */
  ghost predicate LastOfKey(kept: seq<string>, i: int)
    requires 0 <= i < |kept|
  {
    forall j :: i < j < |kept| ==> KeyOf(kept[j]) != KeyOf(kept[i])
  }

  /** `dict(pairs)`: each pair in turn sets its key, so a later key overrides an earlier one. */
  function DictOf(pairs: seq<(string, string)>): map<string, string> {
    if pairs == [] then map[]
    else
      var last := pairs[|pairs| - 1];
      DictOf(pairs[..|pairs| - 1])[last.0 := last.1]
  }

  /** No later pair has the key of pair `i`. */
  ghost predicate NotOverridden(pairs: seq<(string, string)>, i: int)
    requires 0 <= i < |pairs|
  {
    forall j :: i < j < |pairs| ==> pairs[j].0 != pairs[i].0
  }

  /** The keys of `dict(pairs)` are the keys of the pairs. */
  lemma {:induction false} DictOfKeys(pairs: seq<(string, string)>)
    ensures forall k :: k in DictOf(pairs) <==> exists i :: 0 <= i < |pairs| && pairs[i].0 == k
    decreases |pairs|
  {
    if pairs != [] {
      var init := pairs[..|pairs| - 1];
      DictOfKeys(init);
      var last := pairs[|pairs| - 1];
      assert DictOf(pairs) == DictOf(init)[last.0 := last.1];
      forall k | k in DictOf(pairs)
        ensures exists i :: 0 <= i < |pairs| && pairs[i].0 == k
      {
        if k != last.0 {
          assert k in DictOf(init);
          var i :| 0 <= i < |init| && init[i].0 == k;
          assert pairs[i].0 == k;
        }
      }
      forall k | exists i :: 0 <= i < |pairs| && pairs[i].0 == k
        ensures k in DictOf(pairs)
      {
        var i :| 0 <= i < |pairs| && pairs[i].0 == k;
        if i < |init| {
          assert init[i].0 == k;
        }
      }
    }
  }

  /** A key maps to the value of the last pair that has it. */
  lemma {:induction false} DictOfLastWins(pairs: seq<(string, string)>, i: int)
    requires 0 <= i < |pairs| && NotOverridden(pairs, i)
    ensures pairs[i].0 in DictOf(pairs) && DictOf(pairs)[pairs[i].0] == pairs[i].1
    decreases |pairs|
  {
    var init := pairs[..|pairs| - 1];
    if i < |pairs| - 1 {
      assert init[i] == pairs[i];
      assert NotOverridden(init, i);
      DictOfLastWins(init, i);
    }
  }

  /**
   `dict(param.split("=") for param in query.split("&") if "=" in param)`:
   `None` stands for the `ValueError` `dict()` raises when a parameter holds
   two or more `=`. Otherwise the keys are the texts before the `=` of the
   kept parameters, and a later parameter overrides an earlier one.
   */
  function QueryParams(query: string): (r: Option<map<string, string>>)
    ensures r.None? <==> exists p :: p in Split(query, '&') && Count(p, '=') >= 2
    ensures r.Some? ==> forall i :: 0 <= i < |Kept(query)| ==>
      Kept(query)[i] == KeyOf(Kept(query)[i]) + "=" + ValueOf(Kept(query)[i])
    ensures r.Some? ==> forall k :: k in r.value <==> exists i :: 0 <= i < |Kept(query)| && KeyOf(Kept(query)[i]) == k
    ensures r.Some? ==> forall i :: 0 <= i < |Kept(query)| && LastOfKey(Kept(query), i) ==>
      KeyOf(Kept(query)[i]) in r.value && r.value[KeyOf(Kept(query)[i])] == ValueOf(Kept(query)[i])
  {
    var parts := QueryParts(query);
    PartsArePairs(query);
    if forall i :: 0 <= i < |parts| ==> |parts[i]| == 2 then
      var pairs := seq(|parts|, i requires 0 <= i < |parts| => (parts[i][0], parts[i][1]));
      KeptDict(query, pairs);
      Some(DictOf(pairs))
    else None
  }

  /** Every kept parameter splits into two parts exactly when none holds two `=`. */
  lemma PartsArePairs(query: string)
    ensures var parts := QueryParts(query);
      (exists i :: 0 <= i < |parts| && |parts[i]| != 2) <==> exists p :: p in Split(query, '&') && Count(p, '=') >= 2
  {
    var parts := QueryParts(query);
    if exists i :: 0 <= i < |parts| && |parts[i]| != 2 {
      var i :| 0 <= i < |parts| && |parts[i]| != 2;
      BadPartHasTwoEquals(query, i);
    } else {
      forall p | p in Split(query, '&')
        ensures Count(p, '=') <= 1
      {
        PiecesHaveOneEquals(query, p);
      }
    }
  }

  /** A kept parameter that does not split in two holds two or more `=`. */
  lemma BadPartHasTwoEquals(query: string, i: int)
    requires 0 <= i < |QueryParts(query)| && |QueryParts(query)[i]| != 2
    ensures Kept(query)[i] in Split(query, '&') && Count(Kept(query)[i], '=') >= 2
  {
    var kept := Kept(query);
    CountZero(kept[i], '=');
    assert kept[i] in kept;
  }

  /** When every kept parameter splits in two, no parameter holds two `=`. */
  lemma PiecesHaveOneEquals(query: string, p: string)
    requires p in Split(query, '&')
    requires forall i :: 0 <= i < |QueryParts(query)| ==> |QueryParts(query)[i]| == 2
    ensures Count(p, '=') <= 1
  {
    var kept := Kept(query);
    CountZero(p, '=');
    if '=' in p {
      var i :| 0 <= i < |kept| && kept[i] == p;
      assert |QueryParts(query)[i]| == 2;
    }
  }

  /** Each pair is the key and the value of its kept parameter, which is `key=value`. */
  lemma PairsOfKept(query: string, pairs: seq<(string, string)>)
    requires |pairs| == |QueryParts(query)|
    requires forall i :: 0 <= i < |pairs| ==> |QueryParts(query)[i]| == 2
    requires forall i :: 0 <= i < |pairs| ==> pairs[i] == (QueryParts(query)[i][0], QueryParts(query)[i][1])
    ensures forall i :: 0 <= i < |pairs| ==> pairs[i] == (KeyOf(Kept(query)[i]), ValueOf(Kept(query)[i]))
    ensures forall i :: 0 <= i < |Kept(query)| ==>
      Kept(query)[i] == KeyOf(Kept(query)[i]) + "=" + ValueOf(Kept(query)[i])
  {
    var kept := Kept(query);
    forall i | 0 <= i < |kept|
      ensures kept[i] == KeyOf(kept[i]) + "=" + ValueOf(kept[i])
    {
      assert |Split(kept[i], '=')| == 2;
      PairPieces(kept[i]);
    }
  }

  /** The dict built from the pairs of the kept parameters, stated through the parameters. */
  lemma KeptDict(query: string, pairs: seq<(string, string)>)
    requires |pairs| == |QueryParts(query)|
    requires forall i :: 0 <= i < |pairs| ==> |QueryParts(query)[i]| == 2
    requires forall i :: 0 <= i < |pairs| ==> pairs[i] == (QueryParts(query)[i][0], QueryParts(query)[i][1])
    ensures forall i :: 0 <= i < |Kept(query)| ==>
      Kept(query)[i] == KeyOf(Kept(query)[i]) + "=" + ValueOf(Kept(query)[i])
    ensures forall k :: k in DictOf(pairs) <==> exists i :: 0 <= i < |Kept(query)| && KeyOf(Kept(query)[i]) == k
    ensures forall i :: 0 <= i < |Kept(query)| && LastOfKey(Kept(query), i) ==>
      KeyOf(Kept(query)[i]) in DictOf(pairs) && DictOf(pairs)[KeyOf(Kept(query)[i])] == ValueOf(Kept(query)[i])
  {
    var kept := Kept(query);
    PairsOfKept(query, pairs);
    DictOfKeys(pairs);
    forall i | 0 <= i < |kept| && LastOfKey(kept, i)
      ensures KeyOf(kept[i]) in DictOf(pairs) && DictOf(pairs)[KeyOf(kept[i])] == ValueOf(kept[i])
    {
      assert NotOverridden(pairs, i);
      DictOfLastWins(pairs, i);
    }
  }

  /** A query made of the single parameter `key=value` gives the one-entry dict. */
  lemma QueryParamsSingle(key: string, value: string)
    requires '&' !in key && '&' !in value && '=' !in key && '=' !in value
    ensures QueryParams(key + "=" + value) == Some(map[key := value])
  {
    var q := key + "=" + value;
    assert '&' !in q;
    SplitJoin([q], '&');
    assert Split(q, '&') == [q];
    assert q[|key|] == '=';
    assert Filter([q], (p: string) => '=' in p) == [q];
    SplitJoin([key, value], '=');
    assert Join([key, value], '=') == q;
    assert QueryParts(q) == [[key, value]];
    assert DictOf([(key, value)]) == DictOf([])[key := value];
  }

  // ---------------------------------------------------------------------------
  // Handlers

  /**
   `handle_factorial`: an absent `n` (the default `0`) and an empty `n` are
   both falsy and give 422, as does an `n` that is not an integer; a negative
   `n` gives 400; otherwise `{"result": n!}`. A query `dict()` rejects ends
   the call before any frame is sent.
   */
  function HandleFactorial(query: string): (r: Reply)
    ensures r.end == Crashed <==> QueryParams(query).None?
    ensures r.end == Crashed ==> r.frames == []
    ensures r.end != Crashed ==> Answered(r)
    ensures QueryParams(query).Some? && ("n" !in QueryParams(query).value || QueryParams(query).value["n"] == "")
      ==> r == SendError(422)
    ensures QueryParams(query).Some? && "n" in QueryParams(query).value && QueryParams(query).value["n"] != "" ==>
      var parsed := ParseInt(QueryParams(query).value["n"]);
      && (parsed.None? ==> r == SendError(422))
      && (parsed.Some? && parsed.value < 0 ==> r == SendError(400))
      && (parsed.Some? && parsed.value >= 0 ==> r == SendJson(ResultOf(JInt(Fact(parsed.value))), 200))
  {
    match QueryParams(query)
    case None => Reply([], Crashed)
    case Some(params) =>
      if "n" !in params || params["n"] == "" then SendError(422)
      else
        match ParseInt(params["n"])
        case None => SendError(422)
        case Some(n) =>
          if n < 0 then SendError(400)
          else SendJson(ResultOf(JInt(Factorial(n).value)), 200)
  }

  /** The query `n=<v>`, for a value without separators, gives the dict `{"n": v}`. */
  lemma NQuery(v: string)
    requires '&' !in v && '=' !in v
    ensures QueryParams("n=" + v) == Some(map["n" := v])
  {
    var q := "n=" + v;
    assert "n" + "=" + v == q;
    QueryParamsSingle("n", v);
  }

  /** Every integer written as `n=<n>`: 400 when negative, otherwise `{"result": n!}`. */
  lemma FactorialOfDecimal(n: int)
    ensures n < 0 ==> HandleFactorial("n=" + Show(n)) == SendError(400)
    ensures n >= 0 ==> HandleFactorial("n=" + Show(n)) == SendJson(ResultOf(JInt(Fact(n))), 200)
  {
    ShowHasNoSeparator(n);
    NQuery(Show(n));
    ParseShow(n);
  }

  /** `n=0` is present and non-empty, so it is accepted: `0! = 1`. */
  lemma FactorialZeroIsNotMissing()
    ensures HandleFactorial("n=0") == SendJson(ResultOf(JInt(1)), 200)
  {
    assert "n=" + Show(0) == "n=0" by {
      assert Show(0) == ShowNat(0) == [DigitChar(0)] == "0";
    }
    FactorialOfDecimal(0);
    assert Fact(0) == 1;
  }

  /** No `n` at all: the default `0` is falsy. */
  lemma FactorialMissing()
    ensures HandleFactorial("") == SendError(422)
    ensures HandleFactorial("m=5") == SendError(422)
  {
    EmptyQuery();
    assert "m" + "=" + "5" == "m=5";
    FactorialOtherKey("m", "5");
  }

  /** The empty query has no parameters. */
  lemma EmptyQuery()
    ensures QueryParams("") == Some(map[])
  {
  }

  /** A single parameter other than `n` leaves `n` missing: 422. */
  lemma FactorialOtherKey(key: string, v: string)
    requires key != "n"
    requires '&' !in key && '&' !in v && '=' !in key && '=' !in v
    ensures HandleFactorial(key + "=" + v) == SendError(422)
  {
    QueryParamsSingle(key, v);
  }

  /** An empty `n=` is falsy too. */
  lemma FactorialEmpty()
    ensures HandleFactorial("n=") == SendError(422)
  {
    assert QueryParams("n=") == Some(map["n" := ""]) by {
      NQuery("");
      assert "n=" + "" == "n=";
    }
  }

  /** A non-empty value that `int()` rejects gives 422. */
  lemma FactorialNotInteger(v: string)
    requires v != "" && '&' !in v && '=' !in v && !IsDecimal(v)
    ensures HandleFactorial("n=" + v) == SendError(422)
  {
    NQuery(v);
    assert ParseInt(v).None?;
  }

  /** A parameter `n=1=2` makes `dict()` raise: no frame is sent. */
  lemma FactorialTwoEquals()
    ensures HandleFactorial("n=1=2") == Reply([], Crashed)
  {
    TwoEqualsRaises();
  }

  /** `dict()` raises on the query `n=1=2`. */
  lemma TwoEqualsRaises()
    ensures QueryParams("n=1=2").None?
  {
    assert "n=1=2" in Split("n=1=2", '&') by {
      SplitJoin(["n=1=2"], '&');
    }
    assert Count("n=1=2", '=') == 2;
  }

  lemma ShowHasNoSeparator(n: int)
    ensures '&' !in Show(n) && '=' !in Show(n) && '/' !in Show(n)
  {
  }

  /**
   `handle_fibonacci`: `n` is the text after the last `/` of the path; text
   that is not an integer gives 422, a negative `n` gives 400, otherwise
   `{"result": fibonacci(n)}`.
   */
  function HandleFibonacci(path: string): (r: Reply)
    ensures Answered(r)
    ensures ParseInt(LastPiece(path, '/')).None? ==> r == SendError(422)
    ensures var parsed := ParseInt(LastPiece(path, '/'));
      && (parsed.Some? && parsed.value < 0 ==> r == SendError(400))
      && (parsed.Some? && parsed.value >= 0 ==> r == SendJson(ResultOf(JInt(Fib(parsed.value + 1))), 200))
  {
    match ParseInt(LastPiece(path, '/'))
    case None => SendError(422)
    case Some(n) =>
      if n < 0 then SendError(400)
      else
        FibonacciIsShifted(n);
        SendJson(ResultOf(JInt(Fibonacci(n).value)), 200)
  }

  /**
   Any path ending in `/<n>` for an integer `n`, whatever comes before the
   last `/`: 400 when negative, otherwise F(n + 1).
   */
  lemma FibonacciOfDecimal(prefix: string, n: int)
    requires prefix != [] && prefix[|prefix| - 1] == '/'
    ensures n < 0 ==> HandleFibonacci(prefix + Show(n)) == SendError(400)
    ensures n >= 0 ==> HandleFibonacci(prefix + Show(n)) == SendJson(ResultOf(JInt(Fib(n + 1))), 200)
  {
    ShowHasNoSeparator(n);
    LastPieceAfterSlash(prefix, Show(n));
    ParseShow(n);
  }

  /** The last piece of `prefix + tail` is `tail` when `prefix` ends with `/` and `tail` holds none. */
  lemma LastPieceAfterSlash(prefix: string, tail: string)
    requires prefix != [] && prefix[|prefix| - 1] == '/' && '/' !in tail
    ensures LastPiece(prefix + tail, '/') == tail
  {
    var s := prefix + tail;
    var r := LastPiece(s, '/');
    assert s[|s| - |tail|..] == tail;
  }

  /** `/fibonacci/` ends with an empty segment, which is not an integer. */
  lemma FibonacciEmptySegment()
    ensures HandleFibonacci("/fibonacci/") == SendError(422)
  {
    LastPieceAfterSlash("/fibonacci/", "");
    assert "/fibonacci/" + "" == "/fibonacci/";
  }

  /** Python's `len(v)`; `None` for the values that have no length (`TypeError`). */
  function PyLen(v: Json): (r: Option<nat>)
    ensures r.Some? <==> v.JString? || v.JArray? || v.JObject?
    ensures r == Some(0) <==> v == JString([]) || v == JArray([]) || v == JObject(map[])
  {
    match v
    case JString(s) => Some(|s|)
    case JArray(xs) => Some(|xs|)
    case JObject(fields) => Some(|fields|)
    case _ => None
  }

  /** `isinstance(v, (int, float))`; a Python `bool` is an `int`. */
  predicate IsNumber(v: Json) {
    v.JBool? || v.JInt? || v.JFloat?
  }

  function NumberValue(v: Json): real
    requires IsNumber(v)
  {
    match v
    case JBool(b) => if b then 1.0 else 0.0
    case JInt(i) => i as real
    case JFloat(x) => x
  }

  /** A list whose every element is a number. */
  predicate IsNumberList(v: Json) {
    v.JArray? && forall i :: 0 <= i < |v.elems| ==> IsNumber(v.elems[i])
  }

  function Numbers(xs: seq<Json>): (r: seq<real>)
    requires forall i :: 0 <= i < |xs| ==> IsNumber(xs[i])
    ensures |r| == |xs|
    ensures forall i :: 0 <= i < |xs| ==> r[i] == NumberValue(xs[i])
  {
    seq(|xs|, i requires 0 <= i < |xs| && IsNumber(xs[i]) => NumberValue(xs[i]))
  }

  /**
   The body of `handle_mean` once `json.loads` has run: the length test comes
   before the type test, so every empty value gives 400; a value without a
   length, a non-list or a non-number element gives 422; a body that is not
   UTF-8 raises an exception the handler does not catch.
   */
  function RespondMean(loaded: JsonLoad): (r: Reply)
    ensures r.end == Crashed <==> loaded.NotUtf8?
    ensures r.end == Crashed ==> r.frames == []
    ensures r.end != Crashed ==> Answered(r)
    ensures r.end != Crashed ==> (Status(r) == 400 <==> loaded.Parsed? && PyLen(loaded.value) == Some(0))
    ensures r.end != Crashed ==>
      (Status(r) == 200 <==> loaded.Parsed? && IsNumberList(loaded.value) && loaded.value.elems != [])
    ensures r.end != Crashed && Status(r) != 200 && Status(r) != 400 ==> r == SendError(422)
  {
    match loaded
    case NotUtf8 => Reply([], Crashed)
    case Malformed => SendError(422)
    case Parsed(v) =>
      match PyLen(v)
      case None => SendError(422)
      case Some(n) =>
        if n == 0 then SendError(400)
        else if !IsNumberList(v) then SendError(422)
        else SendJson(ResultOf(JFloat(Mean(Numbers(v.elems)).value)), 200)
  }

  /**
   `[]`, `{}` and `""` all have length 0, so all give 400; a bare number,
   boolean or `null` has no length, so `len` raises `TypeError`: 422.
   */
  lemma MeanEmptyValues()
    ensures RespondMean(Parsed(JArray([]))) == SendError(400)
    ensures RespondMean(Parsed(JObject(map[]))) == SendError(400)
    ensures RespondMean(Parsed(JString(""))) == SendError(400)
    ensures forall i :: RespondMean(Parsed(JInt(i))) == SendError(422)
    ensures forall x :: RespondMean(Parsed(JFloat(x))) == SendError(422)
    ensures forall b :: RespondMean(Parsed(JBool(b))) == SendError(422)
    ensures RespondMean(Parsed(JNull)) == SendError(422)
    ensures RespondMean(Malformed) == SendError(422)
  {
  }

  /**
   `True` is an `int` to `isinstance`, so it is averaged as 1; a numeric
   string, `null` and a nested list are not numbers.
   */
  lemma MeanCountsBooleans()
    ensures RespondMean(Parsed(JArray([JBool(true), JInt(2)]))) == SendJson(ResultOf(JFloat(1.5)), 200)
    ensures RespondMean(Parsed(JArray([JInt(1), JString("2")]))) == SendError(422)
    ensures RespondMean(Parsed(JArray([JNull]))) == SendError(422)
    ensures RespondMean(Parsed(JArray([JArray([JInt(1)])]))) == SendError(422)
  {
    var xs := Numbers([JBool(true), JInt(2)]);
    assert xs == [1.0, 2.0];
    assert xs[..1] == [1.0] && xs[..1][..0] == [];
    assert Sum(xs) == 3.0;
  }

  /** A list with any element that is not a number (a string, `null`, a list, an object) gets 422. */
  lemma MeanRejectsNonNumber(xs: seq<Json>, i: int)
    requires 0 <= i < |xs| && !IsNumber(xs[i])
    ensures RespondMean(Parsed(JArray(xs))) == SendError(422)
  {
  }

  /** A successful mean lies between the smallest and the largest number. */
  lemma MeanResultBetween(v: Json)
    requires IsNumberList(v) && v.elems != []
    ensures var xs := Numbers(v.elems);
      RespondMean(Parsed(v)) == SendJson(ResultOf(JFloat(Mean(xs).value)), 200)
      && MinOf(xs) <= Mean(xs).value <= MaxOf(xs)
  {
    MeanBetweenMinMax(Numbers(v.elems));
  }

  /** `handle_mean`: read the whole body, load it as JSON, answer. */
  function HandleMean(ms: seq<Message>, load: Bytes -> JsonLoad): (r: Reply)
    ensures ReadBody(ms).None? <==> r.end == Waiting
    ensures ReadBody(ms).None? ==> r.frames == []
    ensures ReadBody(ms).Some? ==> r == RespondMean(load(ReadBody(ms).value))
  {
    match ReadBody(ms)
    case None => Reply([], Waiting)
    case Some(body) => RespondMean(load(body))
  }

  // ---------------------------------------------------------------------------
  // Dispatcher

  /**
   `app(scope, receive, send)`: `ms` are the messages `receive` would return,
   `load` is `json.loads`, and the result is every frame passed to `send`
   together with how the call ended.
   */
  function App(scope: Scope, ms: seq<Message>, load: Bytes -> JsonLoad): (r: Reply)
    ensures scope.kind != "http" ==> r == Reply([], Done)
    ensures scope.kind == "http" && RouteOf(scope.verb, scope.path) == NoRoute ==> r == SendError(404)
    ensures scope.kind == "http" && RouteOf(scope.verb, scope.path) == FactorialRoute
      ==> r == HandleFactorial(scope.queryString)
    ensures scope.kind == "http" && RouteOf(scope.verb, scope.path) == FibonacciRoute
      ==> r == HandleFibonacci(scope.path)
    ensures scope.kind == "http" && RouteOf(scope.verb, scope.path) == MeanRoute
      ==> r == HandleMean(ms, load)
  {
    if scope.kind != "http" then Reply([], Done)
    else
      match RouteOf(scope.verb, scope.path)
      case FactorialRoute => HandleFactorial(scope.queryString)
      case FibonacciRoute => HandleFibonacci(scope.path)
      case MeanRoute => HandleMean(ms, load)
      case NoRoute => SendError(404)
  }

  /**
   Every HTTP request is answered with exactly two frames, except that a query
   `dict()` rejects or a body that is not UTF-8 ends the call before any frame
   is sent, and a body whose last message never arrives leaves it waiting.
   */
  lemma AppAnswers(scope: Scope, ms: seq<Message>, load: Bytes -> JsonLoad)
    requires scope.kind == "http"
    ensures var r := App(scope, ms, load);
      var route := RouteOf(scope.verb, scope.path);
      && (r.end == Done ==> Answered(r))
      && (r.end != Done ==> r.frames == [])
      && (r.end == Crashed <==>
            || (route == FactorialRoute && QueryParams(scope.queryString).None?)
            || (route == MeanRoute && ReadBody(ms).Some? && load(ReadBody(ms).value).NotUtf8?))
      && (r.end == Waiting <==> route == MeanRoute && ReadBody(ms).None?)
  {
  }

  lemma UnknownPathNotFound()
    ensures App(Scope("http", "GET", "/unknown", ""), [], (b: Bytes) => Malformed) == SendError(404)
    ensures App(Scope("http", "POST", "/factorial", "n=3"), [], (b: Bytes) => Malformed) == SendError(404)
  {
    assert "/unknown"[1] != "/factorial"[1] && "/unknown"[1] != "/fibonacci"[1] && "/unknown"[1] != "/mean"[1];
  }
}

=== FILE: shop.dfy ===
/**
 The in-memory shop: carts and items kept in two insertion-ordered dicts,
 and the request handlers that create, read, list, change and soft-delete
 them. Each handler maps a store to a new store and an outcome: a value, an
 HTTP error status, or an uncaught exception.
 */
module Shop {

  import opened Seqs
  import opened OrderedDict

  /** `Item`: `statusDelete` marks a soft-deleted item. */
  datatype Item = Item(id: int, name: string, price: real, statusDelete: bool)

  /** `ItemCart`: one line of a cart. */
  datatype ItemCart = ItemCart(id: int, name: string, quantity: int, available: bool)

  /** `Cart`: its lines and its running total. */
  datatype Cart = Cart(id: int, items: seq<ItemCart>, price: real)

  /** The two module-level dicts `carts` and `items`. */
  datatype Store = Store(carts: Dict<Cart>, items: Dict<Item>)

  /** What a handler answers: a value, an `HTTPException` status, or an uncaught exception. */
  datatype Outcome<+T> = Ok(value: T) | Fail(status: int) | Crash

  datatype Step<+T> = Step(store: Store, outcome: Outcome<T>)

  /** A JSON request body, as a dict from key to value. */
  datatype Value = Str(s: string) | Number(x: real) | Flag(b: bool) | OtherValue

  type Body = map<string, Value>

  /** The lines of a cart hold distinct items, each at least once. */
  ghost predicate LinesValid(lines: seq<ItemCart>) {
    && (forall i, j :: 0 <= i < j < |lines| ==> lines[i].id != lines[j].id)
    && (forall i :: 0 <= i < |lines| ==> lines[i].quantity >= 1)
  }

  /** What every handler keeps true: both dicts are consistent and each entry's id is its key. */
  ghost predicate Valid(s: Store) {
    && OrderedDict.Valid(s.carts)
    && OrderedDict.Valid(s.items)
    && (forall k :: k in s.carts.entries ==> s.carts.entries[k].id == k && LinesValid(s.carts.entries[k].items))
    && (forall k :: k in s.items.entries ==> s.items.entries[k].id == k)
  }

  /** The store at start-up: no carts, item 1 and the soft-deleted item 2. */
  function Initial(): (s: Store)
    ensures Valid(s)
  {
    var items := Set(Set(Empty(), 1, Item(1, "test0", 100.0, false)), 2, Item(2, "test1", 300.0, true));
    Store(Empty(), items)
  }

  /** `sum(item.quantity for item in cart.items)` */
  function Quantity(lines: seq<ItemCart>): int {
    if lines == [] then 0 else Quantity(lines[..|lines| - 1]) + lines[|lines| - 1].quantity
  }

  // ---------------------------------------------------------------------------
  // Carts

  /** `create_cart`: a new empty cart under the next id. */
  function CreateCart(s: Store): (r: Step<int>)
    requires Valid(s)
    ensures Valid(r.store) && r.outcome.Ok?
    ensures var id := r.outcome.value;
      && id !in s.carts.entries
      && (forall k :: k in s.carts.entries ==> k < id)
      && (s.carts.entries == map[] ==> id == 1)
      && (s.carts.entries != map[] ==> id - 1 in s.carts.entries)
      && r.store.carts.entries == s.carts.entries[id := Cart(id, [], 0.0)]
      && r.store.carts.keys == s.carts.keys + [id]
      && r.store.items == s.items
  {
    var id := NextId(s.carts);
    Step(s.(carts := Set(s.carts, id, Cart(id, [], 0.0))), Ok(id))
  }

  /** `get_cart` */
  function GetCart(s: Store, id: int): (r: Outcome<Cart>)
    requires Valid(s)
    ensures r.Ok? <==> id in s.carts.entries
    ensures r.Ok? ==> r.value == s.carts.entries[id] && r.value.id == id
    ensures !r.Ok? ==> r == Fail(404)
  {
    if id !in s.carts.entries then Fail(404) else Ok(s.carts.entries[id])
  }

  /** One row of the cart listing. */
  datatype CartSummary = CartSummary(id: int, quantity: int, price: real)

  function Summarize(c: Cart): CartSummary {
    CartSummary(c.id, Quantity(c.items), c.price)
  }

  predicate AtLeast(bound: Option<real>, x: real) {
    bound.None? || x >= bound.value
  }

  predicate AtMost(bound: Option<real>, x: real) {
    bound.None? || x <= bound.value
  }

  /** The filters of the cart listing; an absent bound does not filter. */
  datatype CartFilter = CartFilter(minPrice: Option<real>, maxPrice: Option<real>,
                                   minQuantity: Option<nat>, maxQuantity: Option<nat>)

  predicate CartMatches(f: CartFilter, c: Cart) {
    && AtLeast(f.minPrice, c.price)
    && AtMost(f.maxPrice, c.price)
    && AtLeast(CountBound(f.minQuantity), Quantity(c.items) as real)
    && AtMost(CountBound(f.maxQuantity), Quantity(c.items) as real)
  }

  /** A count bound, compared with a count exactly as a number. */
  function CountBound(bound: Option<nat>): Option<real> {
    if bound.None? then None else Some(bound.value as real)
  }

  /** The `min_price` and `max_price` filters of the cart listing. */
  function CartsByPrice(carts: seq<Cart>, f: CartFilter): (r: seq<Cart>)
    ensures forall c :: c in r <==> c in carts && AtLeast(f.minPrice, c.price) && AtMost(f.maxPrice, c.price)
    ensures forall c :: c in carts ==>
      multiset(r)[c] == if AtLeast(f.minPrice, c.price) && AtMost(f.maxPrice, c.price) then multiset(carts)[c] else 0
    ensures IsSubseq(r, carts)
  {
    var a := FilterIf(carts, f.minPrice.Some?, (c: Cart) => AtLeast(f.minPrice, c.price));
    var b := FilterIf(a, f.maxPrice.Some?, (c: Cart) => AtMost(f.maxPrice, c.price));
    SubseqTrans(b, a, carts);
    b
  }

  /** The cart's total quantity meets both quantity bounds. */
  predicate QuantityMatches(f: CartFilter, c: Cart) {
    && AtLeast(CountBound(f.minQuantity), Quantity(c.items) as real)
    && AtMost(CountBound(f.maxQuantity), Quantity(c.items) as real)
  }

  /** The `min_quantity` and `max_quantity` filters of the cart listing. */
  function CartsByQuantity(carts: seq<Cart>, f: CartFilter): (r: seq<Cart>)
    ensures forall c :: c in r <==>
      && c in carts
      && AtLeast(CountBound(f.minQuantity), Quantity(c.items) as real)
      && AtMost(CountBound(f.maxQuantity), Quantity(c.items) as real)
    ensures forall c :: c in carts ==>
      multiset(r)[c] == if QuantityMatches(f, c) then multiset(carts)[c] else 0
    ensures IsSubseq(r, carts)
  {
    var a := FilterIf(carts, f.minQuantity.Some?, (c: Cart) => AtLeast(CountBound(f.minQuantity), Quantity(c.items) as real));
    var b := FilterIf(a, f.maxQuantity.Some?, (c: Cart) => AtMost(CountBound(f.maxQuantity), Quantity(c.items) as real));
    SubseqTrans(b, a, carts);
    b
  }

  /** The carts in insertion order, passed through the four optional filters in turn. */
  function MatchingCarts(s: Store, f: CartFilter): (r: seq<Cart>)
    requires OrderedDict.Valid(s.carts)
    ensures forall c :: c in r ==> c in Values(s.carts) && CartMatches(f, c)
    ensures forall c :: c in Values(s.carts) && CartMatches(f, c) ==> c in r
    ensures forall c :: c in Values(s.carts) ==>
      multiset(r)[c] == if CartMatches(f, c) then multiset(Values(s.carts))[c] else 0
    ensures IsSubseq(r, Values(s.carts))
  {
    var all := Values(s.carts);
    var byPrice := CartsByPrice(all, f);
    var r := CartsByQuantity(byPrice, f);
    SubseqTrans(r, byPrice, all);
    r
  }

  /** The price and quantity bounds are non-negative, as the query parameters are declared. */
  predicate CartFilterAllowed(f: CartFilter) {
    && (f.minPrice.Some? ==> f.minPrice.value >= 0.0)
    && (f.maxPrice.Some? ==> f.maxPrice.value >= 0.0)
  }

  /**
   `get_cart_params`: the matching carts from position `offset`, at most
   `limit` of them, each with its id, total quantity and price.
   */
  function GetCartParams(s: Store, offset: nat, limit: nat, f: CartFilter): (r: seq<CartSummary>)
    requires OrderedDict.Valid(s.carts)
    requires limit >= 1 && CartFilterAllowed(f)
    ensures |r| <= limit
    ensures var m := MatchingCarts(s, f);
      && |r| == (if offset >= |m| then 0 else Min(limit, |m| - offset))
      && forall i :: 0 <= i < |r| ==> r[i] == Summarize(m[offset + i])
  {
    var page := Slice(MatchingCarts(s, f), offset, limit);
    seq(|page|, i requires 0 <= i < |page| => Summarize(page[i]))
  }

  /** A cart of the listing is the stored cart under its own id. */
  lemma StoredCart(s: Store, c: Cart)
    requires Valid(s) && c in Values(s.carts)
    ensures c.id in s.carts.entries && s.carts.entries[c.id] == c
  {
    var all := Values(s.carts);
    var j :| 0 <= j < |all| && all[j] == c;
    assert s.carts.keys[j] in s.carts.entries;
  }

  /**
   Every listed row is a stored cart that passes the filters, reported with
   its id, the sum of its line quantities and its price.
   */
  lemma GetCartParamsSound(s: Store, offset: nat, limit: nat, f: CartFilter)
    requires Valid(s) && limit >= 1 && CartFilterAllowed(f)
    ensures var r := GetCartParams(s, offset, limit, f);
      forall i :: 0 <= i < |r| ==>
        && r[i].id in s.carts.entries
        && CartMatches(f, s.carts.entries[r[i].id])
        && r[i] == CartSummary(r[i].id, Quantity(s.carts.entries[r[i].id].items), s.carts.entries[r[i].id].price)
  {
    var m := MatchingCarts(s, f);
    var r := GetCartParams(s, offset, limit, f);
    forall i | 0 <= i < |r|
      ensures r[i].id in s.carts.entries && s.carts.entries[r[i].id] == m[offset + i] && CartMatches(f, m[offset + i])
    {
      assert m[offset + i] in m;
      StoredCart(s, m[offset + i]);
    }
  }

  /** A first page large enough lists exactly the matching carts. */
  lemma GetCartParamsComplete(s: Store, limit: nat, f: CartFilter, c: Cart)
    requires Valid(s) && limit >= 1 && CartFilterAllowed(f)
    requires |MatchingCarts(s, f)| <= limit
    ensures Summarize(c) in GetCartParams(s, 0, limit, f) <== c in Values(s.carts) && CartMatches(f, c)
  {
    var m := MatchingCarts(s, f);
    var r := GetCartParams(s, 0, limit, f);
    if c in Values(s.carts) && CartMatches(f, c) {
      var i :| 0 <= i < |m| && m[i] == c;
      assert r[i] == Summarize(c);
    }
  }

  /** Some line of the cart is for item `id`. */
  predicate HasLine(lines: seq<ItemCart>, id: int) {
    exists j :: 0 <= j < |lines| && lines[j].id == id
  }

  /** The index of the first line for item `id`. */
  function FirstLine(lines: seq<ItemCart>, id: int): (i: nat)
    requires HasLine(lines, id)
    ensures i < |lines| && lines[i].id == id
    ensures forall j :: 0 <= j < i ==> lines[j].id != id
  {
    if lines[0].id == id then 0
    else
      assert HasLine(lines[1..], id) by {
        var j :| 0 <= j < |lines| && lines[j].id == id;
        assert lines[1..][j - 1].id == id;
      }
      1 + FirstLine(lines[1..], id)
  }

  /** `for cart_item in cart.items: if cart_item.id == item_id: cart_item.quantity += 1` (first match only). */
  function IncrementLine(lines: seq<ItemCart>, id: int): (r: seq<ItemCart>)
    requires HasLine(lines, id)
    ensures var i := FirstLine(lines, id);
      r == lines[i := lines[i].(quantity := lines[i].quantity + 1)]
  {
    if lines[0].id == id then [lines[0].(quantity := lines[0].quantity + 1)] + lines[1..]
    else
      assert HasLine(lines[1..], id) by {
        var j :| 0 <= j < |lines| && lines[j].id == id;
        assert lines[1..][j - 1].id == id;
      }
      [lines[0]] + IncrementLine(lines[1..], id)
  }

  /** Replacing one line changes the total quantity by the difference of the two lines. */
  lemma {:induction false} QuantityUpdate(lines: seq<ItemCart>, i: nat, line: ItemCart)
    requires i < |lines|
    ensures Quantity(lines[i := line]) == Quantity(lines) - lines[i].quantity + line.quantity
    decreases |lines|
  {
    var n := |lines| - 1;
    if i < n {
      QuantityUpdate(lines[..n], i, line);
      assert lines[i := line][..n] == lines[..n][i := line];
    } else {
      assert lines[i := line][..n] == lines[..n];
    }
  }

  /** The total is also the first line's quantity plus the total of the rest. */
  lemma {:induction false} QuantityCons(line: ItemCart, lines: seq<ItemCart>)
    ensures Quantity([line] + lines) == line.quantity + Quantity(lines)
    decreases |lines|
  {
    if lines == [] {
      assert ([line] + lines)[..0] == [];
    } else {
      var n := |lines| - 1;
      QuantityCons(line, lines[..n]);
      assert ([line] + lines)[..n + 1] == [line] + lines[..n];
    }
  }

  lemma QuantityAppend(lines: seq<ItemCart>, line: ItemCart)
    ensures Quantity(lines + [line]) == Quantity(lines) + line.quantity
  {
    assert (lines + [line])[..|lines|] == lines;
  }

  /** The two messages of `add_item_to_cart`. */
  datatype AddMessage = QuantityIncreased | ItemAdded

  /**
   `add_item_to_cart`: a missing cart, and then a missing item, give 404.
   Otherwise the item's line is incremented, or a new line is appended whose
   `available` is the opposite of the item's `statusDelete`, and the cart
   total grows by the item's price.
   */
  function AddItemToCart(s: Store, cartId: int, itemId: int): (r: Step<AddMessage>)
    requires Valid(s)
    ensures Valid(r.store)
    ensures cartId !in s.carts.entries ==> r == Step(s, Fail(404))
    ensures cartId in s.carts.entries && itemId !in s.items.entries ==> r == Step(s, Fail(404))
    ensures !r.outcome.Ok? ==> r.store == s
    ensures r.outcome.Ok? <==> cartId in s.carts.entries && itemId in s.items.entries
    ensures r.outcome.Ok? ==>
      var old_ := s.carts.entries[cartId];
      var item := s.items.entries[itemId];
      && r.store.items == s.items
      && r.store.carts.keys == s.carts.keys
      && cartId in r.store.carts.entries
      && r.store.carts.entries == s.carts.entries[cartId := r.store.carts.entries[cartId]]
      && var new_ := r.store.carts.entries[cartId];
      && new_.id == cartId
      && new_.price == old_.price + item.price
      && Quantity(new_.items) == Quantity(old_.items) + 1
      && (HasLine(old_.items, itemId) ==>
            new_.items == IncrementLine(old_.items, itemId) && r.outcome.value == QuantityIncreased)
      && (!HasLine(old_.items, itemId) ==>
            new_.items == old_.items + [ItemCart(itemId, item.name, 1, !item.statusDelete)]
            && r.outcome.value == ItemAdded)
  {
    if cartId !in s.carts.entries then Step(s, Fail(404))
    else if itemId !in s.items.entries then Step(s, Fail(404))
    else
      var added := AddLine(s.carts.entries[cartId], s.items.entries[itemId]);
      Step(s.(carts := Set(s.carts, cartId, added.0)), Ok(added.1))
  }

  /** The cart after one more unit of `item`: the loop over its lines, then the price update. */
  function AddLine(cart: Cart, item: Item): (r: (Cart, AddMessage))
    requires LinesValid(cart.items)
    ensures LinesValid(r.0.items) && r.0.id == cart.id
    ensures r.0.price == cart.price + item.price
    ensures Quantity(r.0.items) == Quantity(cart.items) + 1
    ensures HasLine(cart.items, item.id) ==>
      r.0.items == IncrementLine(cart.items, item.id) && r.1 == QuantityIncreased
    ensures !HasLine(cart.items, item.id) ==>
      r.0.items == cart.items + [ItemCart(item.id, item.name, 1, !item.statusDelete)] && r.1 == ItemAdded
  {
    if HasLine(cart.items, item.id) then
      var i := FirstLine(cart.items, item.id);
      var lines := IncrementLine(cart.items, item.id);
      QuantityUpdate(cart.items, i, lines[i]);
      assert LinesValid(lines) by {
        forall j | 0 <= j < |lines| ensures lines[j].id == cart.items[j].id {}
      }
      (cart.(items := lines, price := cart.price + item.price), QuantityIncreased)
    else
      var line := ItemCart(item.id, item.name, 1, !item.statusDelete);
      QuantityAppend(cart.items, line);
      (cart.(items := cart.items + [line], price := cart.price + item.price), ItemAdded)
  }

  // ---------------------------------------------------------------------------
  // Items

  /** The `name` and `price` of a body, where present, have the types `Item` declares. */
  predicate NameAndPriceTyped(body: Body) {
    && ("name" in body ==> body["name"].Str?)
    && ("price" in body ==> body["price"].Number?)
  }

  /**
   `add_new_item`: a new item under the next id, not deleted. A body without
   `name` or `price` raises `KeyError`.
   */
  function AddNewItem(s: Store, body: Body): (r: Step<Item>)
    requires Valid(s) && NameAndPriceTyped(body)
    ensures Valid(r.store)
    ensures r.outcome.Crash? <==> "name" !in body || "price" !in body
    ensures !r.outcome.Ok? ==> r.store == s
    ensures r.outcome.Ok? ==>
      var item := r.outcome.value;
      && item.id !in s.items.entries
      && (forall k :: k in s.items.entries ==> k < item.id)
      && (s.items.entries == map[] ==> item.id == 1)
      && (s.items.entries != map[] ==> item.id - 1 in s.items.entries)
      && item == Item(item.id, body["name"].s, body["price"].x, false)
      && r.store.items.entries == s.items.entries[item.id := item]
      && r.store.items.keys == s.items.keys + [item.id]
      && r.store.carts == s.carts
  {
    if "name" !in body || "price" !in body then Step(s, Crash)
    else
      var id := NextId(s.items);
      var item := Item(id, body["name"].s, body["price"].x, false);
      Step(s.(items := Set(s.items, id, item)), Ok(item))
  }

  /** `get_item`: absent and soft-deleted items both give 404. */
  function GetItem(s: Store, id: int): (r: Outcome<Item>)
    requires Valid(s)
    ensures r.Ok? <==> id in s.items.entries && !s.items.entries[id].statusDelete
    ensures r.Ok? ==> r.value == s.items.entries[id] && r.value.id == id
    ensures !r.Ok? ==> r == Fail(404)
  {
    if id !in s.items.entries then Fail(404)
    else if s.items.entries[id].statusDelete then Fail(404)
    else Ok(s.items.entries[id])
  }

  /** The filters of the item listing. */
  datatype ItemFilter = ItemFilter(minPrice: Option<real>, maxPrice: Option<real>, showDeleted: bool)

  predicate ItemMatches(f: ItemFilter, it: Item) {
    && (f.showDeleted || !it.statusDelete)
    && AtLeast(f.minPrice, it.price)
    && AtMost(f.maxPrice, it.price)
  }

  /** The items in insertion order, without deleted ones unless asked, then price-filtered. */
  function MatchingItems(s: Store, f: ItemFilter): (r: seq<Item>)
    requires OrderedDict.Valid(s.items)
    ensures forall it :: it in r ==> it in Values(s.items) && ItemMatches(f, it)
    ensures forall it :: it in Values(s.items) && ItemMatches(f, it) ==> it in r
    ensures forall it :: it in Values(s.items) ==>
      multiset(r)[it] == if ItemMatches(f, it) then multiset(Values(s.items))[it] else 0
    ensures IsSubseq(r, Values(s.items))
  {
    var all := Values(s.items);
    var a := FilterIf(all, !f.showDeleted, (it: Item) => !it.statusDelete);
    var b := FilterIf(a, f.minPrice.Some?, (it: Item) => AtLeast(f.minPrice, it.price));
    var c := FilterIf(b, f.maxPrice.Some?, (it: Item) => AtMost(f.maxPrice, it.price));
    SubseqTrans(b, a, all);
    SubseqTrans(c, b, all);
    c
  }

  predicate ItemFilterAllowed(f: ItemFilter) {
    && (f.minPrice.Some? ==> f.minPrice.value >= 0.0)
    && (f.maxPrice.Some? ==> f.maxPrice.value >= 0.0)
  }

  /**
   `get_item_param`: the matching items from position `offset`, at most
   `limit` of them, in insertion order; deleted items only with `showDeleted`.
   */
  function GetItemParams(s: Store, offset: nat, limit: nat, f: ItemFilter): (r: seq<Item>)
    requires OrderedDict.Valid(s.items)
    requires limit >= 1 && ItemFilterAllowed(f)
    ensures |r| <= limit
    ensures IsSubseq(r, Values(s.items))
    ensures var m := MatchingItems(s, f);
      && |r| == (if offset >= |m| then 0 else Min(limit, |m| - offset))
      && forall i :: 0 <= i < |r| ==> r[i] == m[offset + i]
  {
    var m := MatchingItems(s, f);
    var r := Slice(m, offset, limit);
    SubseqTrans(r, m, Values(s.items));
    r
  }

  /** An item of the listing is the stored item under its own id. */
  lemma StoredItem(s: Store, it: Item)
    requires Valid(s) && it in Values(s.items)
    ensures it.id in s.items.entries && s.items.entries[it.id] == it
  {
    var all := Values(s.items);
    var j :| 0 <= j < |all| && all[j] == it;
    assert s.items.keys[j] in s.items.entries;
  }

  /**
   Every listed item is a stored item that passes the filters; in particular
   no deleted item is listed unless `showDeleted` is set.
   */
  lemma GetItemParamsSound(s: Store, offset: nat, limit: nat, f: ItemFilter)
    requires Valid(s) && limit >= 1 && ItemFilterAllowed(f)
    ensures var r := GetItemParams(s, offset, limit, f);
      forall it :: it in r ==>
        && it.id in s.items.entries
        && s.items.entries[it.id] == it
        && ItemMatches(f, it)
        && (!f.showDeleted ==> !it.statusDelete)
  {
    var m := MatchingItems(s, f);
    var r := GetItemParams(s, offset, limit, f);
    forall it | it in r
      ensures it.id in s.items.entries && s.items.entries[it.id] == it && ItemMatches(f, it)
    {
      var i :| 0 <= i < |r| && r[i] == it;
      assert m[offset + i] in m;
      StoredItem(s, it);
    }
  }

  /** A first page large enough lists every matching item. */
  lemma GetItemParamsComplete(s: Store, limit: nat, f: ItemFilter, it: Item)
    requires Valid(s) && limit >= 1 && ItemFilterAllowed(f)
    requires |MatchingItems(s, f)| <= limit
    ensures it in GetItemParams(s, 0, limit, f) <==> it in Values(s.items) && ItemMatches(f, it)
  {
    var m := MatchingItems(s, f);
    var r := GetItemParams(s, 0, limit, f);
    assert r == m;
  }

  /**
   `put_item`: only the `name` key is checked (the test `("name" or "price")`
   is the test for `"name"`), a missing `price` then raises `KeyError`, and
   otherwise a fresh, not deleted item is stored under `id`, creating it or
   replacing (and so undeleting) the one there.
   */
  function PutItem(s: Store, id: int, body: Body): (r: Step<Item>)
    requires Valid(s) && NameAndPriceTyped(body)
    ensures Valid(r.store)
    ensures "name" !in body ==> r == Step(s, Fail(422))
    ensures "name" in body && "price" !in body ==> r == Step(s, Crash)
    ensures r.outcome.Ok? <==> "name" in body && "price" in body
    ensures r.outcome.Ok? ==>
      var item := Item(id, body["name"].s, body["price"].x, false);
      && r.outcome.value == item
      && r.store.items.entries == s.items.entries[id := item]
      && (id in s.items.entries ==> r.store.items.keys == s.items.keys)
      && (id !in s.items.entries ==> r.store.items.keys == s.items.keys + [id])
      && r.store.carts == s.carts
  {
    if "name" !in body then Step(s, Fail(422))
    else if "price" !in body then Step(s, Crash)
    else
      var item := Item(id, body["name"].s, body["price"].x, false);
      Step(s.(items := Set(s.items, id, item)), Ok(item))
  }

  /** After a successful put the item can be read again, even if it had been deleted. */
  lemma PutThenGet(s: Store, id: int, body: Body)
    requires Valid(s) && NameAndPriceTyped(body) && "name" in body && "price" in body
    ensures var r := PutItem(s, id, body); GetItem(r.store, id) == r.outcome
  {
  }

  /** The keys a patch may name: the fields of `Item`. */
  const ItemFields: set<string> := {"id", "name", "price", "status_delete"}

  predicate PatchTyped(body: Body) {
    && NameAndPriceTyped(body)
    && ("status_delete" in body ==> body["status_delete"].Flag?)
  }

  /**
   `patch_item`: a missing id raises `KeyError`; a deleted item gives 304; a
   key that is not an `Item` field gives 422; a `status_delete` different
   from the stored one gives 422; otherwise `name` and `price` are taken from
   the body or kept.
   */
  function PatchItem(s: Store, id: int, body: Body): (r: Step<Item>)
    requires Valid(s) && PatchTyped(body)
    ensures Valid(r.store)
    ensures !r.outcome.Ok? ==> r.store == s
    ensures id !in s.items.entries ==> r.outcome == Crash
    ensures id in s.items.entries && s.items.entries[id].statusDelete ==> r.outcome == Fail(304)
    ensures id in s.items.entries && !s.items.entries[id].statusDelete && !(body.Keys <= ItemFields)
      ==> r.outcome == Fail(422)
    ensures id in s.items.entries && !s.items.entries[id].statusDelete && body.Keys <= ItemFields
      && "status_delete" in body && body["status_delete"].b
      ==> r == Step(s, Fail(422))
    ensures r.outcome.Ok? <==>
      && id in s.items.entries
      && !s.items.entries[id].statusDelete
      && body.Keys <= ItemFields
      && ("status_delete" in body ==> !body["status_delete"].b)
    ensures r.outcome.Ok? ==>
      var old_ := s.items.entries[id];
      var item := r.outcome.value;
      && item.id == id && !item.statusDelete
      && item.name == (if "name" in body then body["name"].s else old_.name)
      && item.price == (if "price" in body then body["price"].x else old_.price)
      && r.store.items.entries == s.items.entries[id := item]
      && r.store.items.keys == s.items.keys
      && r.store.carts == s.carts
  {
    if id !in s.items.entries then Step(s, Crash)
    else
      var old_ := s.items.entries[id];
      if old_.statusDelete then Step(s, Fail(304))
      else if body.Keys - ItemFields != {} then Step(s, Fail(422))
      else
        var name := if "name" in body then body["name"].s else old_.name;
        var price := if "price" in body then body["price"].x else old_.price;
        var statusDelete := if "status_delete" in body then body["status_delete"].b else old_.statusDelete;
        var item := Item(id, name, price, statusDelete);
        if old_.statusDelete != item.statusDelete then Step(s, Fail(422))
        else Step(s.(items := Set(s.items, id, item)), Ok(item))
  }

  /**
   `delete_item`: an absent id gives 404; otherwise only the item's
   `statusDelete` becomes true.
   */
  function DeleteItem(s: Store, id: int): (r: Step<Item>)
    requires Valid(s)
    ensures Valid(r.store)
    ensures id !in s.items.entries <==> r == Step(s, Fail(404))
    ensures id in s.items.entries ==>
      var old_ := s.items.entries[id];
      && r.outcome == Ok(old_.(statusDelete := true))
      && r.store.items.entries == s.items.entries[id := old_.(statusDelete := true)]
      && r.store.items.keys == s.items.keys
      && r.store.carts == s.carts
  {
    if id !in s.items.entries then Step(s, Fail(404))
    else
      var item := s.items.entries[id].(statusDelete := true);
      Step(s.(items := Set(s.items, id, item)), Ok(item))
  }

  /** Deleting twice is deleting once. */
  lemma DeleteIdempotent(s: Store, id: int)
    requires Valid(s)
    ensures var once := DeleteItem(s, id); DeleteItem(once.store, id) == once
  {
  }

  /** A deleted item can no longer be read, and the default listing leaves it out. */
  lemma DeleteHides(s: Store, id: int, offset: nat, limit: nat, f: ItemFilter)
    requires Valid(s) && id in s.items.entries && limit >= 1 && ItemFilterAllowed(f) && !f.showDeleted
    ensures var s' := DeleteItem(s, id).store;
      && GetItem(s', id) == Fail(404)
      && forall it :: it in GetItemParams(s', offset, limit, f) ==> it.id != id
  {
    GetItemParamsSound(DeleteItem(s, id).store, offset, limit, f);
  }

  /** A deleted item can still be put in a cart; its line is marked unavailable. */
  lemma DeletedItemAddedUnavailable(s: Store, cartId: int, itemId: int)
    requires Valid(s) && cartId in s.carts.entries && itemId in s.items.entries
    requires s.items.entries[itemId].statusDelete && !HasLine(s.carts.entries[cartId].items, itemId)
    ensures var r := AddItemToCart(s, cartId, itemId);
      r.outcome == Ok(ItemAdded) && !r.store.carts.entries[cartId].items[|r.store.carts.entries[cartId].items| - 1].available
  {
  }
}

=== FILE: text.dfy ===
/**
 Text handling used by the raw dispatcher: byte strings, Python's
 `str.split(sep)`, and the integer parser `int(s)` restricted to an optional
 sign followed by ASCII decimal digits.
 */
module Text {

  import opened Seqs

  newtype byte = b: int | 0 <= b < 256

  type Bytes = seq<byte>

  /** A Python `b"..."` literal written with ASCII characters only. */
  function Ascii(s: string): (r: Bytes)
    requires forall i :: 0 <= i < |s| ==> s[i] as int < 128
    ensures |r| == |s|
    ensures forall i :: 0 <= i < |r| ==> r[i] as int == s[i] as int
  {
    seq(|s|, i requires 0 <= i < |s| => s[i] as int as byte)
  }

  /** Number of occurrences of `c` in `s`. */
  function Count(s: string, c: char): nat {
    if s == [] then 0 else (if s[0] == c then 1 else 0) + Count(s[1..], c)
  }

  lemma {:induction false} CountZero(s: string, c: char)
    ensures Count(s, c) == 0 <==> c !in s
    decreases |s|
  {
    if s != [] {
      CountZero(s[1..], c);
      assert s == [s[0]] + s[1..];
    }
  }

  /** `s.split(c)`: the pieces between occurrences of `c`; `"".split(c) == [""]`. */
  function Split(s: string, c: char): (r: seq<string>)
    ensures |r| == Count(s, c) + 1
    ensures forall i :: 0 <= i < |r| ==> c !in r[i]
  {
    if s == [] then [[]]
    else
      var rest := Split(s[1..], c);
      if s[0] == c then [[]] + rest
      else [[s[0]] + rest[0]] + rest[1..]
  }

  /** `c.join(ps)`, the inverse of `Split`. */
  function Join(ps: seq<string>, c: char): string
    requires |ps| >= 1
  {
    if |ps| == 1 then ps[0] else ps[0] + [c] + Join(ps[1..], c)
  }

  lemma {:induction false} JoinSplit(s: string, c: char)
    ensures Join(Split(s, c), c) == s
    decreases |s|
  {
    if s != [] {
      var rest := Split(s[1..], c);
      JoinSplit(s[1..], c);
      if s[0] != c {
        var r := Split(s, c);
        if |rest| == 1 {
          assert r == [[s[0]] + rest[0]];
        } else {
          assert r[1..] == rest[1..];
          assert Join(rest, c) == rest[0] + [c] + Join(rest[1..], c);
        }
      }
    }
  }

  /** A join starts with the first character of its first piece, followed by the join of the rest. */
  lemma JoinDropFirst(ps: seq<string>, c: char)
    requires |ps| >= 1 && |ps[0]| > 0
    ensures Join(ps, c) == [ps[0][0]] + Join([ps[0][1..]] + ps[1..], c)
  {
  }

  lemma {:induction false} SplitJoin(ps: seq<string>, c: char)
    requires |ps| >= 1
    requires forall i :: 0 <= i < |ps| ==> c !in ps[i]
    ensures Split(Join(ps, c), c) == ps
    decreases |ps|, |ps[0]|
  {
    if |ps[0]| > 0 {
      var ps' := [ps[0][1..]] + ps[1..];
      assert c !in ps'[0];
      SplitJoin(ps', c);
      JoinDropFirst(ps, c);
      assert [ps[0][0]] + ps'[0] == ps[0];
      assert ps'[1..] == ps[1..];
    } else if |ps| > 1 {
      SplitJoin(ps[1..], c);
      assert Join(ps, c)[1..] == Join(ps[1..], c);
    }
  }

  /** `s.split(c)[-1]`: the text after the last `c`, or all of `s` when it holds none. */
  function LastPiece(s: string, c: char): (r: string)
    ensures c !in r
    ensures |r| <= |s| && r == s[|s| - |r|..]
    ensures |r| < |s| ==> s[|s| - |r| - 1] == c
  {
    LastPieceIsSuffix(s, c);
    var ps := Split(s, c);
    ps[|ps| - 1]
  }

  lemma {:induction false} LastPieceIsSuffix(s: string, c: char)
    ensures var ps := Split(s, c); var r := ps[|ps| - 1];
      |r| <= |s| && r == s[|s| - |r|..] && (|r| < |s| ==> s[|s| - |r| - 1] == c)
    decreases |s|
  {
    if s != [] {
      LastPieceIsSuffix(s[1..], c);
      var rest := Split(s[1..], c);
      var ps := Split(s, c);
      if s[0] == c {
        assert ps[|ps| - 1] == rest[|rest| - 1];
      } else if |rest| > 1 {
        var r := rest[|rest| - 1];
        assert ps[|ps| - 1] == r;
        assert s[1..][|s[1..]| - |r|..] == s[|s| - |r|..];
        if |r| < |s| - 1 {
          assert s[1..][|s[1..]| - |r| - 1] == s[|s| - |r| - 1];
        } else if |r| == |s[1..]| {
          assert r == s[1..];
          CountZero(s[1..], c);
          assert false;
        }
      } else {
        CountZero(s[1..], c);
        assert rest[0] == s[1..];
        assert ps[|ps| - 1] == s;
      }
    }
  }

  predicate IsDigit(c: char) {
    '0' <= c <= '9'
  }

  function DigitValue(c: char): nat
    requires IsDigit(c)
  {
    c as int - '0' as int
  }

  function DigitChar(d: nat): (c: char)
    requires d < 10
    ensures IsDigit(c) && DigitValue(c) == d
  {
    (d + '0' as int) as char
  }

  predicate AllDigits(s: string) {
    forall i :: 0 <= i < |s| ==> IsDigit(s[i])
  }

  /** The value of a string of decimal digits, most significant first. */
  function DigitsValue(s: string): nat
    requires AllDigits(s)
  {
    if s == [] then 0 else DigitsValue(s[..|s| - 1]) * 10 + DigitValue(s[|s| - 1])
  }

  /** An optional `+` or `-` followed by at least one decimal digit. */
  predicate IsDecimal(s: string) {
    && s != []
    && (AllDigits(s) || ((s[0] == '-' || s[0] == '+') && |s| >= 2 && AllDigits(s[1..])))
  }

  /**
   `int(s)` on a string: an optional `+` or `-` followed by at least one
   decimal digit. `None` stands for the `ValueError` Python raises.
   */
  function ParseInt(s: string): (r: Option<int>)
    ensures r.Some? <==> IsDecimal(s)
    ensures AllDigits(s) && s != [] ==> r == Some(DigitsValue(s))
    ensures |s| >= 2 && s[0] == '+' && AllDigits(s[1..]) ==> r == Some(DigitsValue(s[1..]))
    ensures |s| >= 2 && s[0] == '-' && AllDigits(s[1..]) ==> r == Some(0 - DigitsValue(s[1..]))
  {
    if s == [] then None
    else if s[0] == '-' || s[0] == '+' then
      var digits := s[1..];
      if digits != [] && AllDigits(digits) then
        var v: int := DigitsValue(digits);
        Some(if s[0] == '-' then -v else v)
      else None
    else if AllDigits(s) then Some(DigitsValue(s))
    else None
  }

  /** `str(n)` for a natural number. */
  function ShowNat(n: nat): (r: string)
    ensures r != [] && AllDigits(r)
  {
    if n < 10 then [DigitChar(n)] else ShowNat(n / 10) + [DigitChar(n % 10)]
  }

  /** `str(n)` for any integer. */
  function Show(n: int): string {
    if n < 0 then "-" + ShowNat(-n) else ShowNat(n)
  }

  lemma {:induction false} DigitsValueShowNat(n: nat)
    ensures DigitsValue(ShowNat(n)) == n
    decreases n
  {
    if n >= 10 {
      DigitsValueShowNat(n / 10);
      var s := ShowNat(n);
      assert s[..|s| - 1] == ShowNat(n / 10);
    }
  }

  /** Parsing what `str` printed gives back the number. */
  lemma ParseShow(n: int)
    ensures ParseInt(Show(n)) == Some(n)
  {
    if n < 0 {
      DigitsValueShowNat(-n);
      assert Show(n)[1..] == ShowNat(-n);
    } else {
      DigitsValueShowNat(n);
      assert Show(n)[0] != '-' && Show(n)[0] != '+';
    }
  }
}

=== FILE: wire.dfy ===
/**
 The ASGI messages the raw dispatcher exchanges with its server: request
 body messages read by `read_body`, and the two response frames written by
 `send_json` and `send_error`.
 */
module Wire {

  import opened Seqs
  import opened Text

  /** A value `json.loads` can produce; an object keeps the last value of a repeated key. */
  datatype Json =
    | JNull
    | JBool(b: bool)
    | JInt(i: int)
    | JFloat(r: real)
    | JString(s: string)
    | JArray(elems: seq<Json>)
    | JObject(fields: map<string, Json>)

  /** What `json.loads(body)` does: a value, `JSONDecodeError`, or `UnicodeDecodeError`. */
  datatype JsonLoad = Parsed(value: Json) | Malformed | NotUtf8

  /** A request message from `receive()`: `body` and `more_body` may each be absent. */
  datatype Message = Message(body: Option<Bytes>, moreBody: Option<bool>)

  /** `message.get("body", b'')` */
  function Chunk(m: Message): Bytes {
    match m.body
    case Some(b) => b
    case None => []
  }

  /** `not message.get("more_body", False)`: the message ends the body. */
  predicate IsLast(m: Message) {
    m.moreBody != Some(true)
  }

  /**
   Absent fields take the defaults of `get`: a message without `body` adds no
   bytes, and only an explicit `more_body=True` asks for more.
   */
  lemma MessageDefaults(body: Option<Bytes>, more: Option<bool>, x: Bytes)
    ensures Chunk(Message(None, more)) == []
    ensures Chunk(Message(Some(x), more)) == x
    ensures IsLast(Message(body, None)) && IsLast(Message(body, Some(false)))
    ensures !IsLast(Message(body, Some(true)))
  {
  }

  /** The chunks of `ms`, concatenated in arrival order. */
  function Concat(ms: seq<Message>): Bytes {
    if ms == [] then [] else Chunk(ms[0]) + Concat(ms[1..])
  }

  /** `k` is the index of the first message that ends the body. */
  ghost predicate FirstLast(ms: seq<Message>, k: nat) {
    k < |ms| && IsLast(ms[k]) && forall j :: 0 <= j < k ==> !IsLast(ms[j])
  }

  /**
   `read_body(receive)`, fed with the messages `ms` in order. `None` means
   every message asked for more, so the source would still be waiting on
   `receive()`.
   */
  function ReadBody(ms: seq<Message>): (r: Option<Bytes>)
    ensures r.Some? <==> exists i :: 0 <= i < |ms| && IsLast(ms[i])
    ensures r.Some? ==> exists k: nat :: FirstLast(ms, k) && r.value == Concat(ms[..k + 1])
  {
    if ms == [] then None
    else if IsLast(ms[0]) then
      assert FirstLast(ms, 0);
      assert ms[..1] == [ms[0]];
      assert Concat(ms[..1]) == Chunk(ms[0]) + Concat([]);
      Some(Chunk(ms[0]))
    else
      match ReadBody(ms[1..])
      case None => None
      case Some(rest) =>
        ReadBodyStep(ms, rest);
        Some(Chunk(ms[0]) + rest)
  }

  /** One more message that asks for more body moves the first last message one place on. */
  lemma ReadBodyStep(ms: seq<Message>, rest: Bytes)
    requires ms != [] && !IsLast(ms[0])
    requires exists k: nat :: FirstLast(ms[1..], k) && rest == Concat(ms[1..][..k + 1])
    ensures exists k: nat :: FirstLast(ms, k) && Chunk(ms[0]) + rest == Concat(ms[..k + 1])
  {
    var k': nat :| FirstLast(ms[1..], k') && rest == Concat(ms[1..][..k' + 1]);
    assert FirstLast(ms, k' + 1);
    assert ms[..k' + 2][1..] == ms[1..][..k' + 1];
  }

  /** The worked example of a two-chunk body and of a single empty final chunk. */
  lemma ReadBodyExamples()
    ensures ReadBody([Message(Some(Ascii("ab")), Some(true)), Message(Some(Ascii("cd")), Some(false))])
         == Some(Ascii("abcd"))
    ensures ReadBody([Message(Some([]), None)]) == Some([])
    ensures ReadBody([Message(None, Some(true))]) == None
  {
    assert Ascii("ab") + Ascii("cd") == Ascii("abcd");
  }

  /** What the body frame carries: literal bytes, or `json.dumps(data).encode("utf8")`. */
  datatype Payload = Raw(bytes: Bytes) | Dumped(data: Json)

  /** `http.response.start` and `http.response.body`. */
  datatype Frame =
    | Start(status: int, headers: seq<(Bytes, Bytes)>)
    | Body(body: Payload)

  /** How the application call ended after sending its frames. */
  datatype End = Done | Crashed | Waiting

  datatype Reply = Reply(frames: seq<Frame>, end: End)

  /** `[(b"content-type", b"application/json")]` */
  function JsonHeaders(): seq<(Bytes, Bytes)> {
    [(Ascii("content-type"), Ascii("application/json"))]
  }

  /** `send_json(send, data, status)` */
  function SendJson(data: Json, status: int): (r: Reply)
    ensures Responded(r, status)
    ensures r.frames[1] == Body(Dumped(data))
  {
    Reply([Start(status, JsonHeaders()), Body(Dumped(data))], Done)
  }

  /** The fixed error bodies of `send_error`, by status. */
  function ErrorBody(status: int): Option<Bytes> {
    if status == 400 then Some(Ascii("{\"detail\": \"Bad Request\"}"))
    else if status == 404 then Some(Ascii("{\"detail\": \"Not found\"}"))
    else if status == 422 then Some(Ascii("{\"detail\": \"Unprocessable Entity\"}"))
    else None
  }

  /**
   `send_error(stat, send)`: the start frame goes out first; an unknown status
   then fails the table lookup, so only the start frame was sent.
   */
  function SendError(status: int): (r: Reply)
    ensures |r.frames| >= 1 && r.frames[0] == Start(status, JsonHeaders())
    ensures r.end == Done <==> status in {400, 404, 422}
    ensures r.end == Done ==> RespondedError(r, status)
    ensures r.end != Done ==> r.end == Crashed && |r.frames| == 1
  {
    match ErrorBody(status)
    case Some(b) => Reply([Start(status, JsonHeaders()), Body(Raw(b))], Done)
    case None => Reply([Start(status, JsonHeaders())], Crashed)
  }

  /** A complete response: a start frame with `status` and the JSON content type, then one body frame. */
  predicate Responded(r: Reply, status: int) {
    && r.end == Done
    && |r.frames| == 2
    && r.frames[0] == Start(status, JsonHeaders())
    && r.frames[1].Body?
  }

  /** A complete error response whose body is the fixed body of `status`. */
  predicate RespondedError(r: Reply, status: int) {
    && Responded(r, status)
    && ErrorBody(status).Some?
    && r.frames[1] == Body(Raw(ErrorBody(status).value))
  }

  lemma ErrorBodies()
    ensures SendError(400) == Reply([Start(400, JsonHeaders()), Body(Raw(Ascii("{\"detail\": \"Bad Request\"}")))], Done)
    ensures SendError(404) == Reply([Start(404, JsonHeaders()), Body(Raw(Ascii("{\"detail\": \"Not found\"}")))], Done)
    ensures SendError(422) == Reply([Start(422, JsonHeaders()), Body(Raw(Ascii("{\"detail\": \"Unprocessable Entity\"}")))], Done)
    ensures SendError(500) == Reply([Start(500, JsonHeaders())], Crashed)
  {
  }
}
